=== FILE: README.md ===
# code-deity core, modelled in Dafny

code-deity is an incremental ("idle") game about writing software. The player
buys eight tiers of code generators. Tier 1 (Variable) produces currency, and
each higher tier produces units of the tier below it. The prestige ladder
resets that progress for permanent bonuses:

- a *refactor* trades currency for refactor points;
- a *compile and release* bumps the version and performs a refactor.

This project models the game's core as immutable records and pure
transitions over exact reals. It proves what the stores do and what their
tests expect. The core comes in four variants, and each has its own module
group:

- **The canonical store** (`app/store/game.ts`, tables in `game/configs.ts`):
  - `GameState`: the state record and a new game.
  - `GameStore`: the unlock getters, manual click, the buy multiplier and the automators.
  - `Purchase`: the multi-buy price and the "max" amount.
  - `Production`: the production getters and bonuses.
  - `Tick`: the game loop, with its two-phase production step and the automators.
  - `Prestige`: refactor, compile and release, and the challenges.
  - `Configs`: the static tables.
  - `Numeric`: powers, geometric series, floor-log and the floor of x^1.5.
- **The paradigm tree** (`game/paradigms.configs.ts`) is in `Paradigms`. The
  store file has no `purchaseParadigm` action; only its tests call one, so
  the purchase rule is modelled as those tests state it.
- **The earlier client store** (`client/app/store/game.ts`, tables in
  `client/game/configs.ts`) is in `ClientStore` and `ClientConfigs`. It
  shares the `State` record with the canonical store and differs in:
  - the refactor threshold (10^308 instead of 10^20);
  - the refactor visibility rule;
  - a sequential, cascading game loop.
- **The first draft store and its timer plugin** (`client/store/game.ts`,
  `client/plugins/game.ts`) are in `DraftStore`: one-at-a-time buying and an
  hour-capped offline tick.
- **The prototype's systems** (`nuxt-vitest-project/game/...`) are in
  `PlayerStore`, `GeneratorsStore` and `GeneratorSystem`.
  `GeneratorSystem.GetGeneratorCost` is a loop whose running sum is proved
  equal to the closed-form geometric series.

Modelling conventions:

- **Numbers:** `break_infinity.js` and `decimal.js` values are `real`. Counts of
  units bought are `nat`.
- **Time:** the clock (`Date.now()`) is an explicit `now` parameter, in milliseconds.
- **Logarithms:** `currency.log10()` is a parameter `lg`. The game takes
  `floor((lg/20)^1.5)` of it, which the model characterises as the largest
  `g` with `g*g <= (lg/20)^3`.
- **Tables:** the generator table is a parameter `cfgs` that must satisfy
  `Configs.WellFormedTable`. The canonical and client tables are proved to
  satisfy it.
- **Automator prices:** the `automatorCosts` map is not part of this model.
  They are a parameter `costOf: int -> real`.
- **Prototype tuning:** the prototype's `gameConfig` values are a `Tuning`
  parameter.
- **Lookups by id:** a lookup with `find(...)!` on an id outside 1..8 would
  crash the store, so those operations require `1 <= id <= 8`. A lookup with
  `find(...)` and an `if` is modelled with its "not found" branch.

What the code does at points a reader might expect otherwise:

- Compile and release is unlocked by five refactors
  (`app/store/game.ts:87`).
- Compile and release charges nothing itself. Its inner refactor grants the
  usual refactor gain and count, but only when a refactor is allowed at
  that moment (see Findings).
- The canonical game loop clamps a negative elapsed time (it returns early
  and only advances the clock). The client plugin's loop does not (see
  Findings).
- Paradigms have no exclusion groups in the table. Technical debt,
  singularity and boosts are not part of this model: their code is absent from the files modelled.

## Model

| member | source | states |
|---|---|---|
| Configs.CanonicalTableWellFormed | game/configs.ts:22-85 | the canonical table has eight tiers with ids 1..8 in order, every growth ratio above 1, every base cost positive and no negative production |
| Configs.CostMultipliersIncrease | game/configs.ts:22-85 | growth ratios rise strictly from 1.20 (Variable) to 1.55 (A.I. Core) |
| Configs.BaseCostsIncrease | game/configs.ts:22-85 | every tier's first unit costs strictly more than the tier below's |
| Configs.ProductionAndBonuses | game/configs.ts:22-85 | every tier makes 1 unit per unit per second; exactly Compiler (0.001) and A.I. Core (0.002) carry a global multiplier bonus |
| Configs.MilestoneIdsUnique | game/configs.ts:105-178 | no two narrative milestones share an id |
| Configs.MilestoneTextKeys | game/configs.ts:105-178 | every milestone's text key is `narrative.` followed by its id |
| Configs.GeneratorMilestonesCoverTiers | game/configs.ts:105-178 | the generator milestones fire on the first unit of a tier, name distinct tiers and cover all eight |
| ClientConfigs.ClientTableWellFormed | client/game/configs.ts:11-68 | the client table has eight well-formed tiers with ids 1..8 |
| ClientConfigs.ClientCostMultipliersStep | client/game/configs.ts:11-68 | the client's growth ratio of tier i is 1.15 + 0.05·i |
| ClientConfigs.ClientBaseCostsIncrease | client/game/configs.ts:11-68 | client base costs run from 10 to 10^24 strictly increasing, with production 1 everywhere |
| GameState.InitialState | app/store/game.ts:45-70 | a new game is valid, with zero currency, points, version and refactors, every tier empty and no challenge active or completed |
| GameState.BoughtOf | app/store/game.ts:81-93 | `find(g => g.id === id)?.bought ?? 0`: the first slot with the id gives its count, and 0 when there is none |
| GameState.BoughtOfShaped | app/store/game.ts:81-93 | in a shaped state, tier id's count is read from slot id-1 |
| GameStore.ManualClick | app/store/game.ts:232-234 | a click adds exactly 1 currency and changes nothing else |
| GameStore.SetBuyMultiplier | app/store/game.ts:249-251 | only the buy multiplier changes, to the one chosen |
| GameStore.GeneratorUnlockChain | app/store/game.ts:74-78 | tier id (other than 1) is unlocked exactly when tier id-1 has been bought at least once |
| GameStore.FirstTierStaysUnlocked | app/store/game.ts:74-75 | once a refactor has happened, tier 1 stays unlocked |
| GameStore.UnlockGatesNested | app/store/game.ts:79-93 | being able to refactor implies refactor is shown; challenges imply automation; a past refactor unlocks refactor and the multiplier |
| GameStore.PurchaseAutomator | app/store/game.ts:253-261 | with automation unlocked, the automator not yet owned and its price covered: the price is debited and the automator is owned and switched on; otherwise nothing changes |
| GameStore.PurchaseAutomatorOnce | app/store/game.ts:253-261 | an automator is paid for at most once |
| GameStore.ToggleAutomator | app/store/game.ts:263-266 | an owned automator's switch flips; others and unowned ids are untouched |
| GameStore.ToggleTwiceRestores | app/store/game.ts:263-266 | toggling twice restores every switch |
| Purchase.CostForAmount | app/store/game.ts:122-134 | the price of n units after k is the sum of the n unit prices B·r^(k+j) |
| Numeric.GeometricSumClosedForm | app/store/game.ts:131-132 | for r ≠ 1 the sum of n unit prices B·r^(k+j) equals the store's closed form B·r^k·(r^n−1)/(r−1) |
| Purchase.FixedBuyAmounts | app/store/game.ts:101-105 | the x1, x10, x100 multipliers buy 1, 10, 100 units |
| Purchase.AffordableIffPowBound | app/store/game.ts:108-119 | n units are affordable exactly when r^n is at most the store's log argument C·(r−1)/(B·r^k)+1 |
| Purchase.BuyAmountIsLargestAffordable | app/store/game.ts:101-121 | under "max", n units are affordable exactly when n is at most the amount chosen, so it is the largest affordable amount |
| Purchase.MaxBuysSomethingIffUnitAffordable | app/store/game.ts:107-112 | "max" chooses a positive amount exactly when the next unit is affordable |
| Purchase.BuyGenerator | app/store/game.ts:236-247 | a purchase never raises currency, touches only the bought tier and keeps the state valid |
| Purchase.BuyGeneratorEffect | app/store/game.ts:236-247 | when the chosen amount is positive and affordable, exactly its price is debited and both amount and bought grow by it; otherwise nothing changes |
| Purchase.MaxBuyExhaustsBudget | app/store/game.ts:236-247 | a "max" purchase buys something, after which the next unit is no longer affordable |
| Production.Buy10BonusSteps | app/store/game.ts:142-149 | the bonus is 1 below ten units and multiplies by 2 (2.2 after challenge 1) per further ten bought |
| Production.RpBonusExamples | app/store/game.test.ts:56-75 | the refactor-point bonus is 1 with no points, 11 with 100 points, and 15 with 100 points at version 2 |
| Production.RpBonusAtLeastOne | app/store/game.ts:151-155 | the refactor-point bonus never drops below 1 |
| Production.ProductionNonNegative | app/store/game.ts:161-177 | a tier never produces a negative amount |
| Production.ProductionMonotoneInAmount | app/store/game.ts:161-177 | holding more units of a tier never lowers its output |
| Production.Challenge1CompletionHelps | app/store/game.ts:142-149 | completing challenge 1 never lowers any tier's output |
| Production.Challenge1SilencesLowTiers | app/store/game.ts:166-168 | during challenge 1, tiers 1-4 produce nothing |
| Tick.CascadeFeedsTierBelow | app/store/game.ts:210-212 | the cascade adds to each tier below the top the yield of the tier above it, from the snapshot, and leaves the top tier alone |
| Tick.ProductionPhaseUsesSnapshot | app/store/game.ts:204-214 | one production step adds to currency and to each lower tier the yield computed before anything changed |
| Tick.ProductionPhaseKeepsValid | app/store/game.ts:204-214 | for non-negative time a production step keeps the state valid and never lowers currency or any amount |
| Tick.RunAutomators | app/store/game.ts:216-227 | automators only buy: they never raise currency or lower amounts, and inactive automators leave their tier unchanged |
| Tick.TopActiveAutomatorBuysFirst | app/store/game.ts:217-227 | the loop runs from tier 8 down, so the highest active automator's tier ends the loop exactly as its own max purchase left it, bought with the full currency |
| Tick.AutomatorBuysMax | app/store/game.ts:218-226 | the highest active automator adds exactly the largest affordable number of units (`BuyAmount` under max) to its tier and pays their price; with nothing affordable its tier is unchanged |
| Purchase.MaxBuyTakesLargestAffordable | app/store/game.ts:232-247 | a max-mode purchase is never refused for its price: it buys exactly `BuyAmount(Max, ..)` units and pays exactly their price, even from a negative currency (zero units) |
| Tick.AdvanceNeverLosesUnits | app/store/game.ts:204-227 | a tick's production plus automation never lowers any tier's amount or bought count |
| Tick.GameLoop | app/store/game.ts:196-230 | the clock always advances to now; a negative elapsed time changes nothing else; the state stays valid and no tier loses units |
| Tick.GameLoopUsesSnapshot | app/store/game.ts:196-214 | without automation, the loop is exactly one snapshot production step over the elapsed seconds |
| Tick.GameLoopBuysOnlyAutomated | app/store/game.ts:216-227 | a tier without an active automator keeps its bought count |
| Tick.GameLoopTopAutomatorBuysMax | app/store/game.ts:196-229 | once automation is unlocked and tier 8's automator is on, a forward tick grows tier 8 by exactly the largest number of units the currency after production affords |
| Tick.AdvanceTopAutomator | app/store/game.ts:204-227 | the same for a forward tick of given seconds |
| Tick.ProductionPhaseFeedsCurrencyOnly | app/store/game.ts:204-214 | production leaves tier 8 alone and adds tier 1's yield to the currency |
| Prestige.LogGain | app/store/game.ts:184-190 | below the threshold the gain is 0; above it is the g ≥ 1 with g² ≤ (lg/scale)³ < (g+1)² |
| Prestige.LogGainMonotone | app/store/game.ts:184-190 | a larger log10 of currency never gives a smaller refactor gain |
| Prestige.LogGainIntegerExponent | app/store/game.ts:184-190 | at currency 10^e the gain g satisfies 8000·g² ≤ e³ < 8000·(g+1)² |
| Prestige.RefactorGain | app/store/game.ts:184-190 | the gain is never negative and is positive exactly when log10(currency) ≥ 20 |
| Prestige.RefactorGainExamples | app/store/game.test.ts:30-45 | 10^19 gives 0, 10^20 gives 1, 10^40 gives 2 (3 with the challenge 2 bonus) |
| Prestige.ResetForPrestige | app/store/game.ts:269-276 | the prestige reset sets currency to the start value, empties every tier and restarts the clock, keeping everything else |
| Prestige.ResetMatchesNewGame | app/store/game.ts:269-276 | after the reset the tiers equal a new game's; the reset keeps validity and is idempotent |
| Prestige.Refactor | app/store/game.ts:278-295 | refused unless allowed; otherwise gain is added, the count grows when the gain is positive, challenge 1 is completed and exited, and the prestige reset follows; version, automators and tier ids are kept |
| Prestige.RefactorTwiceIsOnce | app/store/game.ts:278-295 | right after a refactor another is refused, so it changes nothing |
| Prestige.RefactorKeepsValid | app/store/game.ts:278-295 | a refactor keeps the state valid and never lowers points or the refactor count |
| Prestige.CompileAndRelease | app/store/game.ts:297-308 | refused until five refactors; otherwise the version is bumped and a refactor performed, with automators restored |
| Prestige.CompileWithoutRefactorStillBumpsVersion | app/store/game.ts:297-308 | when the inner refactor is refused, each compile still adds a version and keeps all currency |
| Prestige.FreeVersionsExample | app/store/game.ts:297-308 | from a new game with five refactors and 1000 currency, two compiles give version 2 and keep all 1000 currency |
| Prestige.GatedCompileAndRelease | app/store/game.ts:297-308 | corrected compile: the version grows only together with a refactor reset |
| Prestige.GatedCompileTwiceIsOnce | app/store/game.ts:297-308 | the corrected compile cannot be repeated for free |
| Prestige.StartChallenge | app/store/game.ts:310-314 | a completed challenge cannot be started; otherwise it becomes active and the prestige reset runs, keeping points, count, version, automators, multiplier and tier ids |
| Prestige.ExitChallenge | app/store/game.ts:316-320 | with no challenge active nothing changes; otherwise the challenge is left, with a prestige reset and completions, points, count, version, automators, multiplier and tier ids kept |
| Prestige.ChallengeActionsKeepActiveNotCompleted | app/store/game.ts:278-320 | no action activates a completed challenge |
| Prestige.Challenge2NeverCompleted | app/store/game.ts:278-320 | no action marks challenge 2 completed, and challenge 1 is completed only by refactoring inside it |
| Paradigms.ParadigmIdsUnique | game/paradigms.configs.ts:11-52 | paradigm ids are distinct |
| Paradigms.TierOneHasNoRequires | game/paradigms.configs.ts:12-33 | procedural, oop and functional require nothing |
| Paradigms.ParadigmEdges | game/paradigms.configs.ts:35-51 | structured requires procedural, declarative requires functional and oop, and every requirement names an earlier node |
| Paradigms.PurchaseParadigm | app/store/game.test.ts:155-188 | an owned or unknown paradigm is unchanged; any change adds just that paradigm, with its prerequisites met and its price debited from enough power; power stays non-negative |
| Paradigms.PurchaseRule | app/store/game.test.ts:155-188 | with unique ids, a paradigm is bought exactly when it is not owned, its prerequisites are owned and the power covers its price |
| Paradigms.PurchaseTwiceIsOnce | app/store/game.test.ts:182-188 | a second purchase of the same paradigm changes nothing |
| Paradigms.PurchaseKeepsClosed | game/paradigms.configs.ts:35-51 | purchases keep every owned paradigm's prerequisites owned |
| Paradigms.ProceduralScenarios | app/store/game.test.ts:155-166 | 0 power buys nothing; 10 buys procedural and leaves 9; buying again leaves 9 |
| Paradigms.StructuredScenarios | app/store/game.test.ts:168-180 | structured is refused without procedural, and with it costs 3 (10 → 7) |
| Paradigms.MissingPrerequisiteRefused | app/store/game.test.ts:168-172 | any missing prerequisite refuses the purchase whatever the power |
| ClientStore.ClientRefactorShownSooner | client/app/store/game.ts:72-79 | the client shows refactor from the first A.I. Core, earlier than the canonical store |
| ClientStore.ClientRefactorGain | client/app/store/game.ts:177-183 | the client gain is non-negative and positive exactly from 10^308 |
| ClientStore.ClientGainNeverExceedsCanonical | client/app/store/game.ts:177-183 | the client's gain never exceeds the canonical gain for the same currency |
| ClientStore.ClientRefactor | client/app/store/game.ts:230-245 | refused unless allowed; otherwise gain and count grow and the tiers reset to 10 currency, leaving challenges, buy multiplier, automators, save version and tier ids alone |
| ClientStore.ClientRefactorMatchesCanonical | client/app/store/game.ts:230-245 | outside challenge 1 and with equal gains, the client refactor is the canonical one |
| ClientStore.ClientCompileAndRelease | client/app/store/game.ts:247-252 | refused until five refactors, otherwise the version is bumped and a client refactor follows |
| ClientStore.ClientGameLoop | client/app/store/game.ts:189-206 | the clock advances, a negative elapsed time changes nothing else, and bought counts never change |
| ClientStore.SequentialCascade | client/app/store/game.ts:197-201 | feeding tiers from the top down touches only amounts, and slots at or above the current tier stay as they were |
| ClientStore.SequentialCascadeReadsFinal | client/app/store/game.ts:197-201 | after the cascade every lower slot k has gained exactly what tier k+2 produces over the elapsed time, as read after it was fed |
| ClientStore.ClientGameLoopExact | client/app/store/game.ts:189-206 | for non-negative elapsed time, tier 8 is unchanged, each lower tier gains the next tier's production and the currency gains tier 1's |
| ClientStore.SequentialCascadeDominates | client/app/store/game.ts:197-201 | the sequential cascade gives every lower tier at least the snapshot yield |
| ClientStore.ClientLoopDominatesSnapshot | client/app/store/game.ts:189-206 | the client loop never yields less currency or fewer units than the canonical snapshot loop |
| ClientStore.ClientLoopCompoundsExample | client/app/store/game.ts:197-204 | from one Function unit and one second, the client loop makes 1 currency where the canonical loop makes 0 |
| ClientStore.ClientFirstPurchase | client/app/store/game.ts:212-223 | with the client table, 10 currency buys the first Variable and leaves 0 |
| DraftStore.DraftInitialState | client/store/game.ts:26-36 | a new draft game holds 10 currency and one empty slot with multiplier 1 per tier |
| DraftStore.DraftStartsFromClientTable | client/store/game.ts:30-35 | the draft uses the eight tiers of the client table in order |
| DraftStore.DraftBuyGenerator | client/store/game.ts:39-52 | for any currency, negative included: an unknown id changes nothing; a purchase buys one unit of one tier at its unit price, and only that slot changes; a valid draft stays valid |
| DraftStore.DraftBuyEffect | client/store/game.ts:39-52 | for the first slot of the id: buys one unit at B·r^bought when affordable, otherwise nothing changes |
| DraftStore.DraftBuyGoesThroughIff | client/store/game.ts:39-52 | a purchase changes the state exactly when the id has a slot whose next unit the currency covers |
| DraftStore.DraftBuyRefusedWhenBroke | client/store/game.ts:39-52 | with currency below zero, as a backwards clock can leave it, no purchase goes through |
| DraftStore.DraftUnitPriceIsStorePrice | client/store/game.ts:43 | the draft's unit price is the later store's price for an amount of one |
| DraftStore.DraftRepeatedBuysCostGeometricSum | client/store/game.ts:39-52 | n single purchases within budget cost exactly the geometric sum of n unit prices |
| DraftStore.AddOutputsIsTotal | client/plugins/game.ts:27-30 | adding each slot's output in turn adds the total rate times the seconds |
| DraftStore.PluginGameLoop | client/plugins/game.ts:20-32 | the clock advances to now and currency grows by the total rate times min(elapsed, 3600) |
| DraftStore.PluginCapsAtOneHour | client/plugins/game.ts:25 | an absence of an hour or more earns exactly one hour's output |
| DraftStore.PluginRollbackLosesCurrency | client/plugins/game.ts:22-25 | a clock moved back with positive output lowers currency |
| DraftStore.RollbackExample | client/plugins/game.ts:22-25 | one first-tier unit and the clock one second back loses that tier's base production |
| DraftStore.PluginGameLoopClamped | client/plugins/game.ts:20-32 | corrected loop: never lowers currency, and equals the plugin loop whenever time moved forward |
| PlayerStore.AddMoney | nuxt-vitest-project/game/state/playerStore.ts:23-25 | only money changes, by the amount |
| PlayerStore.DeductMoney | nuxt-vitest-project/game/state/playerStore.ts:26-32 | succeeds exactly when money covers the amount, then subtracting it; otherwise nothing changes; money never goes negative |
| PlayerStore.DeductUndoesAdd | nuxt-vitest-project/game/state/playerStore.ts:23-32 | deducting what was just added succeeds and restores the player |
| PlayerStore.DeductMoneyScenarios | nuxt-vitest-project/tests/game.test.ts:28-41 | 200 less 50 leaves 150; 100 cannot pay 150 |
| PlayerStore.AddRefactorPoints | nuxt-vitest-project/game/state/playerStore.ts:33-35 | only refactor points change, by the amount |
| PlayerStore.AddVersionPoints | nuxt-vitest-project/game/state/playerStore.ts:36-38 | only version points change, by the amount |
| PlayerStore.ResetPlayerState | nuxt-vitest-project/game/state/playerStore.ts:39-42 | the soft reset zeroes money and keeps both kinds of points |
| PlayerStore.HardResetPlayerState | nuxt-vitest-project/game/state/playerStore.ts:43-47 | the hard reset gives a new player |
| PlayerStore.ResetsRelate | nuxt-vitest-project/game/state/playerStore.ts:39-47 | hard after soft is hard; soft is idempotent; soft on a player without points is a new player |
| GeneratorsStore.CreateInitialGenerators | nuxt-vitest-project/game/state/generatorsStore.ts:10-19 | one record per configured id at level 1 with nothing held and rate 0 |
| GeneratorsStore.GetGenerator | nuxt-vitest-project/game/state/generatorsStore.ts:26-28 | absent exactly when no record has the id; otherwise the first record with it |
| GeneratorsStore.GetGeneratorQuantity | nuxt-vitest-project/game/state/generatorsStore.ts:29-31 | an id not in the list reads 0 units; otherwise the quantity of its first record |
| GeneratorsStore.AddGenerator | nuxt-vitest-project/game/state/generatorsStore.ts:37-42 | adds to the first record of the id only; an unknown id changes nothing |
| GeneratorsStore.UpdateGeneratorProductionRate | nuxt-vitest-project/game/state/generatorsStore.ts:43-48 | sets the rate of the first record of the id only; an unknown id changes nothing |
| GeneratorsStore.AddGeneratorAccumulates | nuxt-vitest-project/game/state/generatorsStore.ts:37-42 | adding a then b units is adding a+b, for any id |
| GeneratorsStore.AddGeneratorReadsBack | nuxt-vitest-project/game/state/generatorsStore.ts:29-42 | after an add to a known id, the quantity read back has grown by exactly the amount |
| GeneratorsStore.AddFiveThenThree | nuxt-vitest-project/tests/game.test.ts:58-64 | adding 5 then 3 to id 0 reads back 8 |
| GeneratorsStore.UpdateThenGet | nuxt-vitest-project/game/state/generatorsStore.ts:26-48 | a rate just set is the rate read back |
| GeneratorsStore.InitialQuantitiesZero | nuxt-vitest-project/game/state/generatorsStore.ts:10-31 | every id reads back 0 units in a new game |
| GeneratorsStore.Reset | nuxt-vitest-project/game/state/generatorsStore.ts:49-51 | whatever was held before, the list becomes a new game's: one record per configured id at level 1 with nothing held and rate 0, and every id reads back 0 units |
| GeneratorsStore.ResetReadsBackNewGame | nuxt-vitest-project/game/state/generatorsStore.ts:26-51 | after a reset a lookup finds a fresh level-1 record exactly for the configured ids, and nothing for any other id |
| GeneratorsStore.AddOrCreateGenerator | nuxt-vitest-project/tests/generator.test.ts:50-56 | corrected add: an id not in the list gets a new level-1 record holding the units; a present id is added to as before; either way the quantity read back grows by the amount |
| GeneratorSystem.GetGeneratorCost | nuxt-vitest-project/game/systems/generator.ts:15-28 | the loop's running total is the geometric sum of n unit prices from the quantity held (equal to the closed form B·r^q·(r^n−1)/(r−1) by Numeric.GeometricSumClosedForm); 0 units cost 0 and one unit costs B·r^q |
| GeneratorSystem.CostScenarios | nuxt-vitest-project/tests/generator.test.ts:80-100 | 0 units cost 0, one unit costs 10, two after one held cost 23.1 |
| GeneratorSystem.GetGeneratorProductionRate | nuxt-vitest-project/game/systems/generator.ts:30-40 | an unknown id rates 0; otherwise base production × quantity × level of its first record |
| GeneratorSystem.ProductionRateScenario | nuxt-vitest-project/tests/generator.test.ts:111-117 | 5 units at level 2 with base production 1 rate 10 |
| GeneratorSystem.InitialRatesCurrent | nuxt-vitest-project/game/state/generatorsStore.ts:10-19 | a new game's stored rates agree with the computed ones |
| GeneratorSystem.BuyGenerator | nuxt-vitest-project/game/systems/generator.ts:42-52 | succeeds exactly when money covers the cost, which is then debited; on success the first record gains the units and its recomputed rate; failure changes nothing; stored rates stay current |
| GeneratorSystem.BuyUpdatesFirstRecord | nuxt-vitest-project/game/systems/generator.ts:45-48 | adding then updating the rate changes only the first record, to the new quantity and its rate |
| GeneratorSystem.CurrentRatesSumToOutput | nuxt-vitest-project/game/systems/generator.ts:54-62 | when stored rates are current, their sum is the total computed output |
| GeneratorSystem.ProduceAllGenerators | nuxt-vitest-project/game/systems/generator.ts:54-62 | the loop's total is the sum of stored rates, added to money; no generators produce 0 |
| GeneratorSystem.ProduceScenario | nuxt-vitest-project/tests/generator.test.ts:184-196 | rates 5 and 10 produce 15 |
| GeneratorSystem.UnknownIdIsCharged | nuxt-vitest-project/game/systems/generator.ts:42-52 | buying an id not in the list succeeds and charges 10 while no record changes |
| GeneratorSystem.CreatingBuyGenerator | nuxt-vitest-project/game/systems/generator.ts:42-52 | corrected buy: succeeds exactly when money covers the cost; on success the held quantity grows by the units bought, an id not in the list getting a new record with its computed rate; stored rates stay current |
| GeneratorSystem.CreateUpdatesNewRecord | nuxt-vitest-project/game/systems/generator.ts:45-48 | buying an id not in the list appends its record with the rate its units make, and reads back the units bought |
| GeneratorSystem.BuyIntoEmptyStore | nuxt-vitest-project/tests/generator.test.ts:143-173 | money 100 and no generators: buying one unit of id 1 succeeds, leaves 90 and a record of one unit at level 1 rating 1 |

## Left out

- Timers: `startGameLoop` and the plugins' `setInterval` scheduling. A tick is one call of a loop function with an explicit `now`.
- Persistence and I/O: saving, loading and the save-version migration.
- `Decimal` arithmetic: rounding, and the precision limits of `break_infinity.js` and `decimal.js`. The model computes over exact reals.
- `log10` of currency: a parameter `lg`, since it is not computable over reals. The `log` in the "max" buy amount is its exact floor, `Numeric.FloorLog`: the largest `n` with r^n at most the argument.
- `automatorCosts`: it is imported by the canonical store, but its definition is not part of this model. Prices come from a parameter.
- `generatorConfig`, `generatorCost` and `cps`: these are lookups and aliases. They are inlined.
- `getBuyBonus`: it has no implementation, and its expected values disagree with the ten-unit bonus the store computes.
- Paradigm names, descriptions and tree positions: presentation only.
- Paradigm effects: no formula in app/store/game.ts reads a paradigm.
- Singularity, technical debt, boosts, offline reconciliation and milestone evaluation: not part of this model; no code for them appears in the files modelled.
- The prototype's `gameConfig` values are the `Tuning` parameter. `getAllGenerators` is the list itself.
- The console message on a refused draft purchase.
- GeneratorSystem.GetGeneratorCost: takes a natural number of units. The source's loop over `quantity.toNumber()` also accepts fractional quantities, rounding the count of terms up.
- GeneratorsStore.AddGenerator: quantities are natural numbers. The source's `Decimal` would also accept negative or fractional amounts.
- Purchase.BuyGenerator: the store adds `amountToBuy.toNumber()` to `bought`. The model keeps that count as a natural number, so float rounding of very large counts is not modelled.
- The client store's `buyAmount`, `costForAmount`, `generatorProduction` and unlock getters equal the canonical ones. They are modelled once, in `Purchase`, `Production` and `GameStore`, and used with the client table.

## Findings

| source | as written | input that shows it | evidently intended | confidence | as-written member | corrected member |
|---|---|---|---|---|---|---|
| client/plugins/game.ts:22-25 | elapsed time is capped above at an hour but not below, so a clock moved backwards gives negative seconds | one first-tier unit, last update one second in the future: currency drops by that tier's base production | a negative elapsed time counts as zero, as the canonical store's loop does | not executed; high | DraftStore.RollbackExample | DraftStore.PluginGameLoopClamped |
| app/store/game.ts:297-308 | the version is bumped before `refactor()`, which returns early when fewer than 10 A.I. Cores are bought | five refactors done and no A.I. Core: each compile adds a version and keeps all currency | a release happens only together with its refactor reset | not executed; medium | Prestige.CompileWithoutRefactorStillBumpsVersion | Prestige.GatedCompileAndRelease |
| nuxt-vitest-project/game/systems/generator.ts:42-52 | an unknown id is priced from quantity 0 and charged, while `addGenerator` ignores it | money 1000, list holding only id 1, buying id 7: returns true, money 990, list unchanged | the missing record is created with the units bought, as the tests' stand-in for the store does (tests/generator.test.ts:50-56) and the empty-store purchase test expects (tests/generator.test.ts:143-173) | not executed; medium | GeneratorSystem.UnknownIdIsCharged | GeneratorSystem.CreatingBuyGenerator |

=== FILE: client_configs.dfy ===
/**
 * The earlier generator table that the client stores read
 * (client/game/configs.ts): the same eight tiers with a gentler price curve.
 */
module ClientConfigs {
  import opened Wrappers
  import opened Configs

  const ClientGeneratorConfigs: seq<GeneratorConfig> := [
    GeneratorConfig(1, "Variable", 10.0, 1.15, 1.0, None),
    GeneratorConfig(2, "Function", 100.0, 1.20, 1.0, None),
    GeneratorConfig(3, "Class", 10000.0, 1.25, 1.0, None),
    GeneratorConfig(4, "Module", 1000000.0, 1.30, 1.0, None),
    GeneratorConfig(5, "Library", 1000000000.0, 1.35, 1.0, None),
    GeneratorConfig(6, "Framework", 10000000000000.0, 1.40, 1.0, None),
    GeneratorConfig(7, "Compiler", 1000000000000000000.0, 1.45, 1.0, None),
    GeneratorConfig(8, "A.I. Core", 1000000000000000000000000.0, 1.50, 1.0, None)
  ]

  lemma ClientTableWellFormed()
    ensures WellFormedTable(ClientGeneratorConfigs)
  {
  }

  /** Price growth climbs in steps of 0.05 from 1.15 for tier 1 to 1.50 for tier 8. */
  lemma ClientCostMultipliersStep()
    ensures forall i :: 0 <= i < |ClientGeneratorConfigs| ==>
      ClientGeneratorConfigs[i].costMultiplier == 1.15 + 0.05 * (i as real)
  {
  }

  /** Base costs rise strictly with the tier, from 10 to 10^24; every tier produces 1 per unit. */
  lemma ClientBaseCostsIncrease()
    ensures ClientGeneratorConfigs[0].baseCost == 10.0
    ensures ClientGeneratorConfigs[7].baseCost == 1000000000000000000000000.0
    ensures forall i, j :: 0 <= i < j < |ClientGeneratorConfigs| ==>
      ClientGeneratorConfigs[i].baseCost < ClientGeneratorConfigs[j].baseCost
    ensures forall i :: 0 <= i < |ClientGeneratorConfigs| ==> ClientGeneratorConfigs[i].baseProduction == 1.0
  {
  }
}

=== FILE: client_store.dfy ===
/**
 * The earlier copy of the store (client/app/store/game.ts), over the older
 * generator table. Purchases and production are those of the store; what
 * differs is the refactor threshold (10^308 instead of 10^20), a refactor
 * button shown from the first AI Core, a refactor without challenges or a
 * clock reset, and a tick that feeds the tiers one after another so that
 * each tier's output already includes what the tier above gave it.
 */
module ClientStore {
  import opened Numeric
  import opened Configs
  import opened ClientConfigs
  import opened GameState
  import opened Production
  import opened Purchase
  import opened GameStore
  import opened Tick
  import opened Prestige

  /** Orders of magnitude of currency that make one refactor point in the earlier store. */
  const ClientRefactorScale: real := 308.0

  /** Refactoring is shown from the first AI Core bought, or after a first refactor. */
  function ClientIsRefactorUnlocked(s: State): bool
  {
    BoughtOf(s.generators, 8) > 0 || s.refactorCount > 0
  }

  /**
   * The earlier store shows the refactor button sooner than the canonical one,
   * never later, and still only allows the refactor itself at 10 AI Cores.
   */
  lemma ClientRefactorShownSooner(s: State)
    ensures IsRefactorUnlocked(s) ==> ClientIsRefactorUnlocked(s)
    ensures CanRefactor(s) ==> ClientIsRefactorUnlocked(s)
    ensures Shaped(s) && s.refactorCount == 0 && s.generators[7].bought == 1 ==>
      ClientIsRefactorUnlocked(s) && !IsRefactorUnlocked(s)
  {
    if Shaped(s) {
      BoughtOfShaped(s, 8);
    }
  }

  /** The earlier gain: floor((lg/308)^1.5) from 10^308 on, half again with challenge 2 completed. */
  function ClientRefactorGain(s: State, lg: real): (gain: real)
    ensures gain >= 0.0
    ensures gain > 0.0 <==> lg >= ClientRefactorScale
  {
    LogGain(lg, ClientRefactorScale) as real * Challenge2Bonus(s)
  }

  /** For the same currency the earlier store never grants more than the canonical one. */
  lemma ClientGainNeverExceedsCanonical(s: State, lg: real)
    ensures ClientRefactorGain(s, lg) <= RefactorGain(s, lg)
    ensures lg == 308.0 ==> ClientRefactorGain(s, lg) == Challenge2Bonus(s)
  {
    if lg >= ClientRefactorScale {
      LogGainMonotone(lg * RefactorScale / ClientRefactorScale, lg, RefactorScale);
      assert LogGain(lg, ClientRefactorScale) == LogGain(lg * RefactorScale / ClientRefactorScale, RefactorScale) by {
        assert lg / ClientRefactorScale == (lg * RefactorScale / ClientRefactorScale) / RefactorScale;
      }
    }
    if lg == 308.0 {
      SquareBracketUnique(1.0, LogGain(lg, ClientRefactorScale), 1);
    }
  }

  /**
   * The earlier refactor: nothing without 10 AI Cores; otherwise a positive
   * gain is added and counted, and currency restarts at 10 with empty
   * generators. Challenges and the clock are left as they are.
   */
  function ClientRefactor(s: State, lg: real): (t: State)
    ensures !CanRefactor(s) ==> t == s
    ensures CanRefactor(s) ==>
      t == ResetForPrestige(t, RestartCurrency, s.lastUpdateTime) &&
      |t.generators| == |s.generators| &&
      t.refactorPoints == s.refactorPoints + ClientRefactorGain(s, lg) &&
      t.refactorCount == s.refactorCount + (if lg >= ClientRefactorScale then 1 else 0)
    ensures t.completions == s.completions && t.activeChallenge == s.activeChallenge
    ensures t.lastUpdateTime == s.lastUpdateTime && t.version == s.version
    ensures t.buyMultiplier == s.buyMultiplier && t.saveVersion == s.saveVersion
    ensures t.purchasedAutomators == s.purchasedAutomators && t.automatorStates == s.automatorStates
    ensures |t.generators| == |s.generators| && forall i :: 0 <= i < |s.generators| ==> t.generators[i].id == s.generators[i].id
  {
    if !CanRefactor(s) then s
    else
      var gain := ClientRefactorGain(s, lg);
      var s1 := if gain > 0.0
        then s.(refactorPoints := s.refactorPoints + gain, refactorCount := s.refactorCount + 1)
        else s;
      ResetForPrestige(s1, RestartCurrency, s.lastUpdateTime)
  }

  /**
   * Outside challenge 1 and at the clock's own time the two refactors reset
   * to the same state; they differ only in the gain threshold.
   */
  lemma ClientRefactorMatchesCanonical(s: State, lgClient: real, lg: real)
    requires s.activeChallenge != Challenge1
    requires ClientRefactorGain(s, lgClient) == RefactorGain(s, lg)
    ensures ClientRefactor(s, lgClient) == Refactor(s, lg, s.lastUpdateTime)
  {
    if CanRefactor(s) {
      assert lgClient >= ClientRefactorScale <==> lg >= RefactorScale;
    }
  }

  /** The earlier compile & release: after 5 refactors, a version bump and then the earlier refactor. */
  function ClientCompileAndRelease(s: State, lg: real): (t: State)
    ensures !IsCompileUnlocked(s) ==> t == s
    ensures IsCompileUnlocked(s) ==>
      t.version == s.version + 1 && t == ClientRefactor(s.(version := s.version + 1), lg)
  {
    if !IsCompileUnlocked(s) then s
    else ClientRefactor(s.(version := s.version + 1), lg)
  }

  /** Slot `k` gains `y` units; nothing else changes. */
  function Feed(s: State, k: nat, y: real): (t: State)
    requires k < |s.generators|
    ensures |t.generators| == |s.generators| && t.generators[k].amount == s.generators[k].amount + y
  {
    s.(generators := s.generators[k := s.generators[k].(amount := s.generators[k].amount + y)])
  }

  /**
   * The earlier tick's cascade, from tier `i` down to tier 2: each tier's
   * output is read from the state the tier above has already fed.
   */
  function SequentialCascade(cfgs: seq<GeneratorConfig>, s: State, diff: real, i: nat): (t: State)
    requires WellFormedTable(cfgs) && Shaped(s) && 1 <= i <= 8
    ensures Shaped(t)
    ensures t.(generators := s.generators) == s
    ensures forall j :: 0 <= j < 8 ==> t.generators[j].bought == s.generators[j].bought
    ensures forall j :: i - 1 <= j < 8 ==> t.generators[j] == s.generators[j]
    decreases i
  {
    if i == 1 then s
    else SequentialCascade(cfgs, Feed(s, i - 2, Yield(GeneratorProduction(cfgs, s, i), diff)), diff, i - 1)
  }

  /**
   * The earlier tick: a clock that went backwards only resynchronises;
   * otherwise the tiers are fed from the top one after another, then the
   * currency gains tier 1's output as it stands after the cascade.
   */
  function ClientGameLoop(cfgs: seq<GeneratorConfig>, s: State, now: int): (t: State)
    requires WellFormedTable(cfgs) && Shaped(s)
    ensures Shaped(t) && t.lastUpdateTime == now
    ensures Elapsed(s, now) < 0.0 ==> t == s.(lastUpdateTime := now)
    ensures t.(currency := s.currency, generators := s.generators, lastUpdateTime := s.lastUpdateTime) == s
    ensures forall j :: 0 <= j < 8 ==> t.generators[j].bought == s.generators[j].bought
  {
    var diff := Elapsed(s, now);
    if diff < 0.0 then s.(lastUpdateTime := now)
    else
      var s1 := SequentialCascade(cfgs, s, diff, 8);
      s1.(currency := s1.currency + Yield(GeneratorProduction(cfgs, s1, 1), diff), lastUpdateTime := now)
  }

  /**
   * A tier's output reads only its own slot and the state-wide bonuses: two
   * shaped states that agree on both give the same production.
   */
  lemma ProductionReadsOwnSlot(cfgs: seq<GeneratorConfig>, a: State, b: State, id: int)
    requires WellFormedTable(cfgs) && Shaped(a) && Shaped(b) && 1 <= id <= 8
    requires a.generators[id - 1] == b.generators[id - 1]
    requires a.activeChallenge == b.activeChallenge && a.completions == b.completions
    requires a.refactorPoints == b.refactorPoints && a.version == b.version
    ensures GeneratorProduction(cfgs, a, id) == GeneratorProduction(cfgs, b, id)
  {
    assert Buy10Bonus(a, id) == Buy10Bonus(b, id);
    assert RpBonus(a) == RpBonus(b);
  }

  /**
   * The cascade exactly: after feeding tiers i down to 2, every lower slot k
   * has gained what tier k+2 produces over the elapsed time, read from the
   * final state, which for that tier is the value it had when it was read
   * (the higher slots are fed before the lower ones read them).
   */
  lemma {:induction false} SequentialCascadeReadsFinal(cfgs: seq<GeneratorConfig>, s: State, diff: real, i: nat)
    requires WellFormedTable(cfgs) && Shaped(s) && 1 <= i <= 8
    ensures var t := SequentialCascade(cfgs, s, diff, i);
      forall k :: 0 <= k < i - 1 ==>
        t.generators[k].amount == s.generators[k].amount + Yield(GeneratorProduction(cfgs, t, k + 2), diff)
    decreases i
  {
    if i > 1 {
      var p := GeneratorProduction(cfgs, s, i);
      var fed := Feed(s, i - 2, Yield(p, diff));
      var t := SequentialCascade(cfgs, s, diff, i);
      assert t == SequentialCascade(cfgs, fed, diff, i - 1);
      SequentialCascadeReadsFinal(cfgs, fed, diff, i - 1);
      assert t.generators[i - 1] == s.generators[i - 1];
      ProductionReadsOwnSlot(cfgs, s, t, i);
      forall k | 0 <= k < i - 1
        ensures t.generators[k].amount == s.generators[k].amount + Yield(GeneratorProduction(cfgs, t, k + 2), diff)
      {
        if k < i - 2 {
          assert fed.generators[k] == s.generators[k];
        }
      }
    }
  }

  /**
   * One client tick exactly: tier 8 keeps its slot, each lower tier k+1
   * gains what tier k+2 produces in the final state, and the currency gains
   * what tier 1 produces.
   */
  lemma ClientGameLoopExact(cfgs: seq<GeneratorConfig>, s: State, now: int)
    requires WellFormedTable(cfgs) && Shaped(s) && Elapsed(s, now) >= 0.0
    ensures var t := ClientGameLoop(cfgs, s, now); var d := Elapsed(s, now);
      t.generators[7] == s.generators[7] &&
      (forall k :: 0 <= k < 7 ==>
        t.generators[k].amount == s.generators[k].amount + Yield(GeneratorProduction(cfgs, t, k + 2), d)) &&
      t.currency == s.currency + Yield(GeneratorProduction(cfgs, t, 1), d)
  {
    var d := Elapsed(s, now);
    var s1 := SequentialCascade(cfgs, s, d, 8);
    var t := ClientGameLoop(cfgs, s, now);
    SequentialCascadeReadsFinal(cfgs, s, d, 8);
    assert t.generators == s1.generators;
    forall id | 1 <= id <= 8
      ensures GeneratorProduction(cfgs, t, id) == GeneratorProduction(cfgs, s1, id)
    {
      ProductionReadsOwnSlot(cfgs, t, s1, id);
    }
  }

  /** `u` is `s0` with some amounts raised and nothing else changed. */
  predicate AmountsRaised(s0: State, u: State)
  {
    Shaped(s0) && Shaped(u) && u.(generators := s0.generators) == s0 &&
    forall j :: 0 <= j < 8 ==>
      u.generators[j].bought == s0.generators[j].bought && u.generators[j].amount >= s0.generators[j].amount
  }

  /** Raising amounts never lowers any tier's output. */
  lemma ProductionUnderRaisedAmounts(cfgs: seq<GeneratorConfig>, s0: State, u: State, id: int)
    requires WellFormedTable(cfgs) && Valid(s0) && AmountsRaised(s0, u) && 1 <= id <= 8
    ensures GeneratorProduction(cfgs, s0, id) <= GeneratorProduction(cfgs, u, id)
  {
    var g := s0.generators[id - 1];
    var more := u.generators[id - 1].amount;
    var v := s0.(generators := s0.generators[id - 1 := g.(amount := more)]);
    ProductionMonotoneInAmount(cfgs, s0, id, more);
    assert u.generators[id - 1] == v.generators[id - 1];
    assert Buy10Bonus(u, id) == Buy10Bonus(v, id);
    assert RpBonus(u) == RpBonus(v);
  }

  lemma YieldMonotone(a: real, b: real, diff: real)
    requires a <= b && diff >= 0.0
    ensures Yield(a, diff) <= Yield(b, diff)
  {
    assert a * diff <= b * diff;
  }

  /** Feeding a non-negative gain into a slot keeps the amounts raised and every other slot as it was. */
  lemma FeedKeepsRaised(s0: State, u: State, k: nat, y: real)
    requires AmountsRaised(s0, u) && k < 8 && y >= 0.0
    ensures AmountsRaised(s0, Feed(u, k, y))
    ensures forall j :: 0 <= j < 8 && j != k ==> Feed(u, k, y).generators[j] == u.generators[j]
  {
  }

  /**
   * Run from tier `i` down on a state whose lower slots are untouched and
   * whose upper slots were raised: every slot below i - 1 ends with at
   * least what the snapshot cascade gives it.
   */
  lemma {:induction false} SequentialCascadeDominates(cfgs: seq<GeneratorConfig>, s0: State, u: State, diff: real, i: nat)
    requires WellFormedTable(cfgs) && Valid(s0) && AmountsRaised(s0, u) && diff >= 0.0 && 1 <= i <= 8
    requires forall j :: 0 <= j < i - 1 ==> u.generators[j].amount == s0.generators[j].amount
    ensures AmountsRaised(s0, SequentialCascade(cfgs, u, diff, i))
    ensures forall j :: 0 <= j < i - 1 ==>
      SequentialCascade(cfgs, u, diff, i).generators[j].amount >=
        s0.generators[j].amount + Yield(GeneratorProduction(cfgs, s0, j + 2), diff)
    decreases i
  {
    if i > 1 {
      var q := GeneratorProduction(cfgs, s0, i);
      var p := GeneratorProduction(cfgs, u, i);
      ProductionUnderRaisedAmounts(cfgs, s0, u, i);
      ProductionNonNegative(cfgs, s0, i);
      YieldMonotone(q, p, diff);
      YieldMonotone(0.0, q, diff);
      var fed := Feed(u, i - 2, Yield(p, diff));
      FeedKeepsRaised(s0, u, i - 2, Yield(p, diff));
      SequentialCascadeDominates(cfgs, s0, fed, diff, i - 1);
      assert SequentialCascade(cfgs, u, diff, i) == SequentialCascade(cfgs, fed, diff, i - 1);
    }
  }

  /**
   * Before automation the earlier tick never yields less than the
   * canonical one: every tier and the currency end at least as high,
   * because each output is read after the tier above has fed it.
   */
  lemma ClientLoopDominatesSnapshot(cfgs: seq<GeneratorConfig>, s: State, now: int)
    requires WellFormedTable(cfgs) && Valid(s) && s.version == 0
    ensures var c := ClientGameLoop(cfgs, s, now);
      var t := GameLoop(cfgs, s, now);
      c.currency >= t.currency && forall j :: 0 <= j < 8 ==> c.generators[j].amount >= t.generators[j].amount
  {
    var diff := Elapsed(s, now);
    if diff >= 0.0 {
      GameLoopUsesSnapshot(cfgs, s, now);
      SequentialCascadeDominates(cfgs, s, s, diff, 8);
      var s1 := SequentialCascade(cfgs, s, diff, 8);
      ProductionUnderRaisedAmounts(cfgs, s, s1, 1);
      YieldMonotone(GeneratorProduction(cfgs, s, 1), GeneratorProduction(cfgs, s1, 1), diff);
    }
  }

  /** A new game over the earlier table holding one Function (tier 2) and nothing else, at clock `start`. */
  function OneFunction(start: int): (s: State)
    ensures Valid(s) && s.version == 0 && s.refactorPoints == 0.0 && s.currency == 0.0
    ensures s.generators[1].amount == 1.0 && s.activeChallenge == NoChallenge
    ensures forall j :: 0 <= j < 8 ==> s.generators[j].bought == 0 && (j != 1 ==> s.generators[j].amount == 0.0)
  {
    ClientTableWellFormed();
    var s := InitialState(ClientGeneratorConfigs, "1.0.1", start);
    s.(generators := s.generators[1 := Generator(2, 1.0, 0)])
  }

  /** Tiers that hold nothing feed nothing: from tier `i` down to tier 3 the earlier cascade is a no-op. */
  lemma {:induction false} EmptyTiersFeedNothing(cfgs: seq<GeneratorConfig>, u: State, diff: real, i: nat)
    requires WellFormedTable(cfgs) && Shaped(u) && 2 <= i <= 8
    requires forall j :: 2 <= j < 8 ==> u.generators[j].amount == 0.0
    ensures SequentialCascade(cfgs, u, diff, i) == SequentialCascade(cfgs, u, diff, 2)
    decreases i
  {
    if i > 2 {
      assert GeneratorProduction(cfgs, u, i) == 0.0;
      assert Feed(u, i - 2, Yield(0.0, diff)) == u by {
        assert u.generators[i - 2 := u.generators[i - 2]] == u.generators;
      }
      EmptyTiersFeedNothing(cfgs, u, diff, i - 1);
    }
  }

  /**
   * The difference is real: with one Function and nothing else, one
   * second of the canonical tick yields no currency, while the earlier tick
   * yields one, because tier 1 has already received its first unit.
   */
  lemma ClientLoopCompoundsExample(now: int)
    ensures GameLoop(ClientGeneratorConfigs, OneFunction(now - 1000), now).currency == 0.0
    ensures ClientGameLoop(ClientGeneratorConfigs, OneFunction(now - 1000), now).currency == 1.0
  {
    ClientTableWellFormed();
    var u := OneFunction(now - 1000);
    assert Elapsed(u, now) == 1.0;
    GameLoopUsesSnapshot(ClientGeneratorConfigs, u, now);
    assert GeneratorProduction(ClientGeneratorConfigs, u, 1) == 0.0;
    assert GeneratorProduction(ClientGeneratorConfigs, u, 2) == 1.0 by {
      assert Buy10Bonus(u, 2) == 1.0;
      RpBonusExamples(u);
    }
    EmptyTiersFeedNothing(ClientGeneratorConfigs, u, 1.0, 8);
    var s1 := SequentialCascade(ClientGeneratorConfigs, u, 1.0, 8);
    assert s1 == Feed(u, 0, Yield(1.0, 1.0));
    assert GeneratorProduction(ClientGeneratorConfigs, s1, 1) == 1.0 by {
      assert Buy10Bonus(s1, 1) == 1.0;
      RpBonusExamples(s1);
    }
  }

  /**
   * Scenario of the first purchase in the earlier table: a new game with 10
   * currency buys one Variable for exactly 10.
   */
  lemma ClientFirstPurchase(now: int)
    ensures var s := InitialState(ClientGeneratorConfigs, "1.0.1", now).(currency := 10.0);
      var t := BuyGenerator(ClientGeneratorConfigs, s, 1);
      t.currency == 0.0 && t.generators[0].amount == 1.0 && t.generators[0].bought == 1
  {
    ClientTableWellFormed();
    var s := InitialState(ClientGeneratorConfigs, "1.0.1", now).(currency := 10.0);
    var c := ClientGeneratorConfigs[0];
    assert UnitCost(c, 0) == 10.0;
    BuyGeneratorEffect(ClientGeneratorConfigs, s, 1);
    assert GeometricSum(c.baseCost, c.costMultiplier, 0, 1) == 10.0;
    assert CostForAmount(c, 0, 1) == 10.0;
  }
}

=== FILE: configs.dfy ===
/**
 * The static balance tables of the game: the eight generator tiers, the
 * prestige thresholds and the narrative milestones (game/configs.ts).
 */
module Configs {
  import opened Wrappers

  /** One generator tier: price of the first unit, price growth per unit, output per unit per second. */
  datatype GeneratorConfig = GeneratorConfig(
    id: int,
    name: string,
    baseCost: real,
    costMultiplier: real,
    baseProduction: real,
    globalMultiplierBonus: Option<real>)

  /** What every table entry has to satisfy for the purchase formulas to make sense. */
  predicate WellFormedConfig(c: GeneratorConfig)
  {
    c.costMultiplier > 1.0 && c.baseCost > 0.0 && c.baseProduction >= 0.0
  }

  /** A generator table: eight tiers, the i-th (from 0) carrying id i + 1. */
  predicate WellFormedTable(cfgs: seq<GeneratorConfig>)
  {
    |cfgs| == 8 && forall i :: 0 <= i < |cfgs| ==> cfgs[i].id == i + 1 && WellFormedConfig(cfgs[i])
  }

  /** The current balance pass: costs stretched so that every new tier is a milestone. */
  const GeneratorConfigs: seq<GeneratorConfig> := [
    GeneratorConfig(1, "Variable", 10.0, 1.20, 1.0, None),
    GeneratorConfig(2, "Function", 100.0, 1.25, 1.0, None),
    GeneratorConfig(3, "Class", 5000.0, 1.30, 1.0, None),
    GeneratorConfig(4, "Module", 50000000.0, 1.35, 1.0, None),
    GeneratorConfig(5, "Library", 5000000000000.0, 1.40, 1.0, None),
    GeneratorConfig(6, "Framework", 500000000000000000000.0, 1.45, 1.0, None),
    GeneratorConfig(7, "Compiler", 10000000000000000000000000000000.0, 1.50, 1.0, Some(0.001)),
    GeneratorConfig(8, "A.I. Core", 1000000000000000000000000000000000000000000.0, 1.55, 1.0, Some(0.002))
  ]

  /** AI Cores (generator 8) that must be bought before a refactor is allowed. */
  const RefactorUnlockAiCores: nat := 10
  const CompileUnlockRp: nat := 25
  const ArchitecturalOverheadAiCores: nat := 25

  lemma CanonicalTableWellFormed()
    ensures WellFormedTable(GeneratorConfigs)
  {
  }

  /** Price growth rises strictly from tier to tier, from 1.20 up to 1.55. */
  lemma CostMultipliersIncrease()
    ensures GeneratorConfigs[0].costMultiplier == 1.20 && GeneratorConfigs[7].costMultiplier == 1.55
    ensures forall i, j :: 0 <= i < j < |GeneratorConfigs| ==>
      GeneratorConfigs[i].costMultiplier < GeneratorConfigs[j].costMultiplier
  {
  }

  /** Every tier is dearer than the one below it. */
  lemma BaseCostsIncrease()
    ensures forall i, j :: 0 <= i < j < |GeneratorConfigs| ==>
      GeneratorConfigs[i].baseCost < GeneratorConfigs[j].baseCost
  {
  }

  /** Every tier produces one unit of the tier below per unit owned; only the top two carry a global bonus. */
  lemma ProductionAndBonuses()
    ensures forall i :: 0 <= i < |GeneratorConfigs| ==> GeneratorConfigs[i].baseProduction == 1.0
    ensures forall i :: 0 <= i < |GeneratorConfigs| ==>
      (GeneratorConfigs[i].globalMultiplierBonus.Some? <==> GeneratorConfigs[i].id in {7, 8})
    ensures GeneratorConfigs[6].globalMultiplierBonus == Some(0.001)
    ensures GeneratorConfigs[7].globalMultiplierBonus == Some(0.002)
  {
  }

  /** The kinds of condition a narrative milestone waits for. */
  datatype ConditionKind = CurrencyReached | GeneratorBought | RefactorCountReached | VersionCountReached

  datatype Milestone = Milestone(
    id: string,
    name: string,
    kind: ConditionKind,
    value: real,
    generatorId: Option<int>,
    textKey: string)

  const NarrativeMilestones: seq<Milestone> := [
    Milestone("n_001", "First Click", CurrencyReached, 1.0, None, "narrative.n_001"),
    Milestone("n_002", "Unlock Generators", CurrencyReached, 10.0, None, "narrative.n_002"),
    Milestone("n_003", "Buy first Variable", GeneratorBought, 1.0, Some(1), "narrative.n_003"),
    Milestone("n_004", "Buy first Function", GeneratorBought, 1.0, Some(2), "narrative.n_004"),
    Milestone("n_005", "Buy first Class", GeneratorBought, 1.0, Some(3), "narrative.n_005"),
    Milestone("n_006", "Buy first Module", GeneratorBought, 1.0, Some(4), "narrative.n_006"),
    Milestone("n_007", "Buy first Library", GeneratorBought, 1.0, Some(5), "narrative.n_007"),
    Milestone("n_008", "Buy first Framework", GeneratorBought, 1.0, Some(6), "narrative.n_008"),
    Milestone("n_009", "Buy first Compiler", GeneratorBought, 1.0, Some(7), "narrative.n_009"),
    Milestone("n_010", "Buy first AI Core", GeneratorBought, 1.0, Some(8), "narrative.n_010"),
    Milestone("n_011", "First Refactor", RefactorCountReached, 1.0, None, "narrative.n_011"),
    Milestone("n_012", "First Compile", VersionCountReached, 1.0, None, "narrative.n_012")
  ]

  /** Milestone ids are distinct. */
  lemma MilestoneIdsUnique()
    ensures forall i, j :: 0 <= i < j < |NarrativeMilestones| ==>
      NarrativeMilestones[i].id != NarrativeMilestones[j].id
  {
  }

  /** Each milestone's text key is derived from its id. */
  lemma MilestoneTextKeys()
    ensures forall i :: 0 <= i < |NarrativeMilestones| ==>
      NarrativeMilestones[i].textKey == "narrative." + NarrativeMilestones[i].id
  {
  }

  /**
   * The generator milestones are "buy the first unit" of each tier: each
   * names a tier of the table, no tier twice, and every tier is covered.
   */
  lemma GeneratorMilestonesCoverTiers()
    ensures forall i :: 0 <= i < |NarrativeMilestones| && NarrativeMilestones[i].kind == GeneratorBought ==>
      NarrativeMilestones[i].value == 1.0 && NarrativeMilestones[i].generatorId.Some? &&
      1 <= NarrativeMilestones[i].generatorId.value <= 8
    ensures forall i, j ::
      (0 <= i < j < |NarrativeMilestones| &&
       NarrativeMilestones[i].kind == GeneratorBought && NarrativeMilestones[j].kind == GeneratorBought) ==>
      NarrativeMilestones[i].generatorId != NarrativeMilestones[j].generatorId
    ensures forall g :: 1 <= g <= 8 ==>
      exists i :: 0 <= i < |NarrativeMilestones| && NarrativeMilestones[i].generatorId == Some(g)
  {
    assert NarrativeMilestones[2].generatorId == Some(1);
    assert NarrativeMilestones[3].generatorId == Some(2);
    assert NarrativeMilestones[4].generatorId == Some(3);
    assert NarrativeMilestones[5].generatorId == Some(4);
    assert NarrativeMilestones[6].generatorId == Some(5);
    assert NarrativeMilestones[7].generatorId == Some(6);
    assert NarrativeMilestones[8].generatorId == Some(7);
    assert NarrativeMilestones[9].generatorId == Some(8);
  }
}

=== FILE: draft_store.dfy ===
/**
 * The first draft of the store (client/store/game.ts) and the tick of the
 * plugin that drove it (client/plugins/game.ts:20-32). Each generator slot
 * carries a copy of its configuration and a multiplier; a purchase buys
 * exactly one unit at the price of the next unit; a tick adds every
 * slot's output over the elapsed time, capped at one hour.
 */
module DraftStore {
  import opened Wrappers
  import opened Numeric
  import opened Configs
  import opened ClientConfigs
  import opened Purchase

  /** A slot of the draft: its configuration, units held, units bought and output multiplier. */
  datatype DraftGenerator = DraftGenerator(config: GeneratorConfig, amount: real, bought: nat, multiplier: real)

  datatype DraftState = DraftState(
    saveVersion: string,
    lastUpdateTime: int,
    currency: real,
    generators: seq<DraftGenerator>)

  /** Every slot's price well-formed: all a purchase needs to price a unit. */
  predicate PricesWellFormed(s: DraftState)
  {
    forall i :: 0 <= i < |s.generators| ==> WellFormedConfig(s.generators[i].config)
  }

  /** Every price well-formed and nothing negative. */
  predicate DraftValid(s: DraftState)
  {
    s.currency >= 0.0 && PricesWellFormed(s) &&
    forall i :: 0 <= i < |s.generators| ==> s.generators[i].amount >= 0.0 && s.generators[i].multiplier >= 0.0
  }

  /** A new draft game: 10 currency, one empty slot with multiplier 1 per configured tier. */
  function DraftInitialState(cfgs: seq<GeneratorConfig>, now: int): (s: DraftState)
    requires forall i :: 0 <= i < |cfgs| ==> WellFormedConfig(cfgs[i])
    ensures DraftValid(s) && s.currency == 10.0 && s.lastUpdateTime == now && |s.generators| == |cfgs|
    ensures forall i :: 0 <= i < |cfgs| ==>
      s.generators[i].config == cfgs[i] && s.generators[i].amount == 0.0 &&
      s.generators[i].bought == 0 && s.generators[i].multiplier == 1.0
  {
    DraftState("1.0.0", now, 10.0,
      seq(|cfgs|, i requires 0 <= i < |cfgs| => DraftGenerator(cfgs[i], 0.0, 0, 1.0)))
  }

  /** The draft's own game starts from the earlier generator table. */
  lemma DraftStartsFromClientTable(now: int)
    ensures var s := DraftInitialState(ClientGeneratorConfigs, now);
      |s.generators| == 8 && forall i :: 0 <= i < 8 ==> s.generators[i].config.id == i + 1
  {
    ClientTableWellFormed();
  }

  function SlotId(g: DraftGenerator): int
  {
    g.config.id
  }

  /**
   * Buy one unit of generator `id`: an unknown id changes nothing; a unit
   * costs baseCost*costMultiplier^bought and is bought only when the
   * currency covers it, adding one unit held and one bought.
   */
  function DraftBuyGenerator(s: DraftState, id: int): (t: DraftState)
    requires PricesWellFormed(s)
    ensures PricesWellFormed(t) && (DraftValid(s) ==> DraftValid(t))
    ensures |t.generators| == |s.generators| && t.currency <= s.currency
    ensures t.lastUpdateTime == s.lastUpdateTime && t.saveVersion == s.saveVersion
    ensures (forall i :: 0 <= i < |s.generators| ==> s.generators[i].config.id != id) ==> t == s
    ensures forall i :: 0 <= i < |s.generators| ==> t.generators[i].config == s.generators[i].config
    ensures forall i :: 0 <= i < |s.generators| && s.generators[i].config.id != id ==> t.generators[i] == s.generators[i]
    ensures t != s ==>
      exists i :: 0 <= i < |s.generators| && s.generators[i].config.id == id &&
        t.currency == s.currency - UnitCost(s.generators[i].config, s.generators[i].bought) &&
        t.generators[i].bought == s.generators[i].bought + 1
  {
    match FirstIndex(s.generators, SlotId, id)
    case None => s
    case Some(i) =>
      var g := s.generators[i];
      assert WellFormedConfig(g.config);
      var cost := UnitCost(g.config, g.bought);
      PowPositive(g.config.costMultiplier, g.bought);
      PositiveProduct(g.config.baseCost, Pow(g.config.costMultiplier, g.bought));
      if s.currency >= cost then
        s.(currency := s.currency - cost,
           generators := s.generators[i := g.(amount := g.amount + 1.0, bought := g.bought + 1)])
      else s
  }

  /** Whether slot `i` is the first slot of generator `id`, the one `find` returns. */
  predicate FirstSlot(s: DraftState, id: int, i: nat)
  {
    i < |s.generators| && s.generators[i].config.id == id &&
    forall j :: 0 <= j < i ==> s.generators[j].config.id != id
  }

  /** The exact effect on the slot `find` picks: one unit at the price of the next unit, or nothing. */
  lemma DraftBuyEffect(s: DraftState, id: int, i: nat)
    requires PricesWellFormed(s) && FirstSlot(s, id, i)
    ensures var g := s.generators[i];
      var t := DraftBuyGenerator(s, id);
      if s.currency >= UnitCost(g.config, g.bought) then
        t.currency == s.currency - UnitCost(g.config, g.bought) &&
        t.generators == s.generators[i := g.(amount := g.amount + 1.0, bought := g.bought + 1)]
      else t == s
  {
    var r := FirstIndex(s.generators, SlotId, id);
    assert SlotId(s.generators[i]) == id;
    if r.Some? {
      assert r.value == i;
    }
  }

  /**
   * A purchase goes through exactly when the id has a slot and the currency
   * covers the next unit of the first such slot.
   */
  lemma DraftBuyGoesThroughIff(s: DraftState, id: int)
    requires PricesWellFormed(s)
    ensures DraftBuyGenerator(s, id) != s <==>
      exists i: nat :: FirstSlot(s, id, i) && s.currency >= UnitCost(s.generators[i].config, s.generators[i].bought)
  {
    match FirstIndex(s.generators, SlotId, id)
    case None =>
    case Some(k) =>
      assert FirstSlot(s, id, k);
      DraftBuyEffect(s, id, k);
      if s.currency >= UnitCost(s.generators[k].config, s.generators[k].bought) {
        assert DraftBuyGenerator(s, id).generators[k].bought != s.generators[k].bought;
      }
  }

  /** With the currency below zero -- as a tick with the clock moved back can leave it -- nothing can be bought. */
  lemma DraftBuyRefusedWhenBroke(s: DraftState, id: int)
    requires PricesWellFormed(s) && s.currency < 0.0
    ensures DraftBuyGenerator(s, id) == s
  {
    DraftBuyGoesThroughIff(s, id);
    forall i: nat | FirstSlot(s, id, i) ensures UnitCost(s.generators[i].config, s.generators[i].bought) > 0.0 {
      var c := s.generators[i].config;
      PowPositive(c.costMultiplier, s.generators[i].bought);
      PositiveProduct(c.baseCost, Pow(c.costMultiplier, s.generators[i].bought));
    }
  }

  /** The draft's single-unit price is the store's price for one unit. */
  lemma DraftUnitPriceIsStorePrice(c: GeneratorConfig, k: nat)
    requires WellFormedConfig(c)
    ensures UnitCost(c, k) == CostForAmount(c, k, 1)
  {
    assert GeometricSum(c.baseCost, c.costMultiplier, k, 1) == UnitCost(c, k);
  }

  /** `n` single-unit purchases of generator `id` in a row. */
  function DraftBuyTimes(s: DraftState, id: int, n: nat): (t: DraftState)
    requires PricesWellFormed(s)
    ensures PricesWellFormed(t) && (DraftValid(s) ==> DraftValid(t)) && |t.generators| == |s.generators|
    ensures forall i :: 0 <= i < |s.generators| ==> t.generators[i].config == s.generators[i].config
  {
    if n == 0 then s else DraftBuyGenerator(DraftBuyTimes(s, id, n - 1), id)
  }

  /**
   * `t` is `s` after `n` single purchases of the unit in slot `i` paid at
   * B*r^k + ... + B*r^(k+n-1), the store's price of `n` units, with `n`
   * units added to the slot.
   */
  predicate BoughtInSeries(s: DraftState, id: int, i: nat, n: nat, t: DraftState)
    requires i < |s.generators|
  {
    var g := s.generators[i];
    FirstSlot(t, id, i) && t.generators[i].config == g.config &&
    t.currency == s.currency - GeometricSum(g.config.baseCost, g.config.costMultiplier, g.bought, n) &&
    t.generators[i].bought == g.bought + n && t.generators[i].amount == g.amount + n as real
  }

  /**
   * Buying one at a time adds up to the geometric series: with enough
   * currency, `n` single purchases cost exactly the store's price of `n`
   * units and add `n` units to the slot.
   */
  lemma {:induction false} DraftRepeatedBuysCostGeometricSum(s: DraftState, id: int, i: nat, n: nat)
    requires PricesWellFormed(s) && FirstSlot(s, id, i)
    requires var g := s.generators[i]; s.currency >= GeometricSum(g.config.baseCost, g.config.costMultiplier, g.bought, n)
    ensures BoughtInSeries(s, id, i, n, DraftBuyTimes(s, id, n))
  {
    if n > 0 {
      var g := s.generators[i];
      SeriesLastTerm(g.config, g.bought, n);
      DraftRepeatedBuysCostGeometricSum(s, id, i, n - 1);
      BuyExtendsSeries(s, id, i, n, DraftBuyTimes(s, id, n - 1));
    }
  }

  /** One more purchase, paid at the next term of the series, extends a run of `n - 1` purchases to `n`. */
  lemma BuyExtendsSeries(s: DraftState, id: int, i: nat, n: nat, u: DraftState)
    requires PricesWellFormed(s) && PricesWellFormed(u) && i < |s.generators| && n >= 1
    requires BoughtInSeries(s, id, i, n - 1, u)
    requires var g := s.generators[i];
      s.currency >= GeometricSum(g.config.baseCost, g.config.costMultiplier, g.bought, n - 1) + UnitCost(g.config, g.bought + n - 1)
    requires var g := s.generators[i];
      GeometricSum(g.config.baseCost, g.config.costMultiplier, g.bought, n)
        == GeometricSum(g.config.baseCost, g.config.costMultiplier, g.bought, n - 1) + UnitCost(g.config, g.bought + n - 1)
    ensures BoughtInSeries(s, id, i, n, DraftBuyGenerator(u, id))
  {
    DraftBuyEffect(u, id, i);
    var t := DraftBuyGenerator(u, id);
    assert t.generators == u.generators[i := u.generators[i].(amount := u.generators[i].amount + 1.0, bought := u.generators[i].bought + 1)];
    assert FirstSlot(t, id, i);
  }

  /** The series for `n` units is the series for `n - 1` plus the price of the last unit, a positive one. */
  lemma SeriesLastTerm(c: GeneratorConfig, k: nat, n: nat)
    requires WellFormedConfig(c) && n >= 1
    ensures UnitCost(c, k + n - 1) > 0.0
    ensures GeometricSum(c.baseCost, c.costMultiplier, k, n)
      == GeometricSum(c.baseCost, c.costMultiplier, k, n - 1) + UnitCost(c, k + n - 1)
  {
    PowPositive(c.costMultiplier, k + n - 1);
    PositiveProduct(c.baseCost, Pow(c.costMultiplier, k + n - 1));
  }

  /** Per-second output of one slot: amount * multiplier * baseProduction. */
  function SlotRate(g: DraftGenerator): real
  {
    g.amount * g.multiplier * g.config.baseProduction
  }

  /** The plugin's running sum: each slot's output over `eff` seconds added in slot order. */
  function AddOutputs(currency: real, gens: seq<DraftGenerator>, eff: real): real
    decreases |gens|
  {
    if |gens| == 0 then currency
    else AddOutputs(currency + SlotRate(gens[0]) * eff, gens[1..], eff)
  }

  /** The total rate of all slots, as a sum from the last slot down. */
  function TotalRate(gens: seq<DraftGenerator>): real
  {
    if |gens| == 0 then 0.0 else TotalRate(gens[..|gens| - 1]) + SlotRate(gens[|gens| - 1])
  }

  /** Adding slot by slot is adding the total rate times the time: the order of the slots does not matter. */
  lemma {:induction false} AddOutputsIsTotal(currency: real, gens: seq<DraftGenerator>, eff: real)
    ensures AddOutputs(currency, gens, eff) == currency + TotalRate(gens) * eff
    decreases |gens|
  {
    if |gens| > 0 {
      assert AddOutputs(currency, gens, eff) == AddOutputs(currency + SlotRate(gens[0]) * eff, gens[1..], eff);
      AddOutputsIsTotal(currency + SlotRate(gens[0]) * eff, gens[1..], eff);
      TotalRateFront(gens);
      SumTimes(SlotRate(gens[0]), TotalRate(gens[1..]), eff);
    }
  }

  lemma SumTimes(a: real, b: real, e: real)
    ensures (a + b) * e == a * e + b * e
  {
  }

  /** The total rate splits off its first slot as well as its last. */
  lemma {:induction false} TotalRateFront(gens: seq<DraftGenerator>)
    requires |gens| > 0
    ensures TotalRate(gens) == SlotRate(gens[0]) + TotalRate(gens[1..])
  {
    if |gens| > 1 {
      TotalRateFront(gens[..|gens| - 1]);
      assert gens[..|gens| - 1][1..] == gens[1..][..|gens[1..]| - 1];
      assert gens[..|gens| - 1][0] == gens[0];
    }
  }

  lemma {:induction false} TotalRateNonNegative(gens: seq<DraftGenerator>)
    requires forall i :: 0 <= i < |gens| ==>
      gens[i].amount >= 0.0 && gens[i].multiplier >= 0.0 && gens[i].config.baseProduction >= 0.0
    ensures TotalRate(gens) >= 0.0
  {
    if |gens| > 0 {
      TotalRateNonNegative(gens[..|gens| - 1]);
      var g := gens[|gens| - 1];
      assert g.amount * g.multiplier >= 0.0;
    }
  }

  /** The one-hour cap on the time a tick may account for, in seconds. */
  const MaxTickSeconds: real := 3600.0

  function Min(a: real, b: real): real
  {
    if a <= b then a else b
  }

  /** Elapsed seconds since the last tick, as the plugin computes them. */
  function DraftElapsed(s: DraftState, now: int): real
  {
    (now - s.lastUpdateTime) as real / 1000.0
  }

  /**
   * The plugin tick as written: the clock moves to `now` first, then every
   * slot's output over min(elapsed, 3600) seconds is added to the currency;
   * the slots themselves are not touched.
   */
  function PluginGameLoop(s: DraftState, now: int): (t: DraftState)
    ensures t.lastUpdateTime == now && t.generators == s.generators && t.saveVersion == s.saveVersion
    ensures t.currency == s.currency + TotalRate(s.generators) * Min(DraftElapsed(s, now), MaxTickSeconds)
  {
    var eff := Min(DraftElapsed(s, now), MaxTickSeconds);
    AddOutputsIsTotal(s.currency, s.generators, eff);
    s.(lastUpdateTime := now, currency := AddOutputs(s.currency, s.generators, eff))
  }

  /** Beyond an hour away the tick pays exactly one hour of output. */
  lemma PluginCapsAtOneHour(s: DraftState, now: int)
    requires now - s.lastUpdateTime >= 3600000
    ensures PluginGameLoop(s, now).currency == s.currency + TotalRate(s.generators) * 3600.0
  {
  }

  /**
   * The written tick loses currency whenever the clock went backwards while
   * anything produces: nothing clamps a negative elapsed time.
   */
  lemma PluginRollbackLosesCurrency(s: DraftState, now: int)
    requires DraftElapsed(s, now) < 0.0 && TotalRate(s.generators) > 0.0
    ensures PluginGameLoop(s, now).currency < s.currency
  {
    assert TotalRate(s.generators) * DraftElapsed(s, now) < 0.0;
  }

  /** A slot's rate is part of the total when no slot's rate is negative. */
  lemma {:induction false} TotalRateAtLeastSlot(gens: seq<DraftGenerator>, i: nat)
    requires i < |gens|
    requires forall j :: 0 <= j < |gens| ==>
      gens[j].amount >= 0.0 && gens[j].multiplier >= 0.0 && gens[j].config.baseProduction >= 0.0
    ensures TotalRate(gens) >= SlotRate(gens[i])
    decreases |gens|
  {
    var last := gens[..|gens| - 1];
    TotalRateNonNegative(last);
    var g := gens[|gens| - 1];
    assert g.amount * g.multiplier >= 0.0;
    if i < |gens| - 1 {
      TotalRateAtLeastSlot(last, i);
    }
  }

  /** Setting a slot's amount to a non-negative value keeps a draft valid. */
  lemma SetAmountKeepsValid(s: DraftState, k: nat, a: real)
    requires DraftValid(s) && k < |s.generators| && a >= 0.0
    ensures DraftValid(s.(generators := s.generators[k := s.generators[k].(amount := a)]))
  {
  }

  /** A new draft game over table `cfgs` holding one unit of its first tier, with its clock at `start`. */
  function OneFirstTier(cfgs: seq<GeneratorConfig>, start: int): (s: DraftState)
    requires WellFormedTable(cfgs)
    ensures DraftValid(s) && s.lastUpdateTime == start && |s.generators| == 8
    ensures SlotRate(s.generators[0]) == cfgs[0].baseProduction
  {
    var s := DraftInitialState(cfgs, start);
    var g := s.generators[0].(amount := 1.0);
    assert g.config == cfgs[0] && g.multiplier == 1.0;
    SetAmountKeepsValid(s, 0, 1.0);
    s.(generators := s.generators[0 := g])
  }

  /**
   * That game with its clock one second in the future: the written tick
   * takes away at least one second of the first tier's output (one unit
   * of currency for the draft's own table, whose Variable makes 1 per
   * second).
   */
  lemma RollbackExample(cfgs: seq<GeneratorConfig>, now: int)
    requires WellFormedTable(cfgs)
    ensures var u := OneFirstTier(cfgs, now + 1000);
      PluginGameLoop(u, now).currency <= u.currency - cfgs[0].baseProduction
  {
    var u := OneFirstTier(cfgs, now + 1000);
    RollbackLosesFirstSlot(u, now);
  }

  /** One second of backwards clock costs at least the first slot's output. */
  lemma RollbackLosesFirstSlot(s: DraftState, now: int)
    requires DraftValid(s) && |s.generators| > 0 && DraftElapsed(s, now) == -1.0
    ensures PluginGameLoop(s, now).currency <= s.currency - SlotRate(s.generators[0])
  {
    TotalRateAtLeastSlot(s.generators, 0);
  }

  /** The elapsed time a tick may account for: never negative and at most an hour. */
  function ClampedSeconds(elapsed: real): (e: real)
    ensures 0.0 <= e <= MaxTickSeconds
    ensures 0.0 <= elapsed <= MaxTickSeconds ==> e == elapsed
  {
    if elapsed < 0.0 then 0.0 else Min(elapsed, MaxTickSeconds)
  }

  /**
   * The plugin tick with a clock that went backwards counted as no time at
   * all: it agrees with the written tick whenever time moved forward, and
   * it never takes currency away.
   */
  function PluginGameLoopClamped(s: DraftState, now: int): (t: DraftState)
    requires DraftValid(s)
    ensures t.lastUpdateTime == now && t.generators == s.generators
    ensures t.currency >= s.currency
    ensures DraftElapsed(s, now) >= 0.0 ==> t == PluginGameLoop(s, now)
    ensures DraftElapsed(s, now) < 0.0 ==> t == s.(lastUpdateTime := now)
  {
    var eff := ClampedSeconds(DraftElapsed(s, now));
    AddOutputsIsTotal(s.currency, s.generators, eff);
    TotalRateNonNegative(s.generators);
    assert TotalRate(s.generators) * eff >= 0.0;
    s.(lastUpdateTime := now, currency := AddOutputs(s.currency, s.generators, eff))
  }
}

=== FILE: game_state.dfy ===
/**
 * The save-game record of the store (app/store/game.ts and its earlier
 * copy client/app/store/game.ts): currency, the eight generator slots,
 * prestige counters, challenge progress and automator flags.
 */
module GameState {
  import opened Wrappers
  import opened Configs

  datatype BuyMultiplier = X1 | X10 | X100 | Max

  datatype Challenge = NoChallenge | Challenge1 | Challenge2

  /** What the player owns of one tier: units held (produced units included) and units bought. */
  datatype Generator = Generator(id: int, amount: real, bought: nat)

  datatype Completions = Completions(challenge1: bool, challenge2: bool)

  datatype State = State(
    saveVersion: string,
    lastUpdateTime: int,
    currency: real,
    generators: seq<Generator>,
    buyMultiplier: BuyMultiplier,
    refactorPoints: real,
    refactorCount: nat,
    version: nat,
    completions: Completions,
    activeChallenge: Challenge,
    purchasedAutomators: map<int, bool>,
    automatorStates: map<int, bool>)

  /** The store always holds one slot per tier, slot i (from 0) for generator i + 1. */
  predicate Shaped(s: State)
  {
    |s.generators| == 8 && forall i :: 0 <= i < |s.generators| ==> s.generators[i].id == i + 1
  }

  /** Shaped, and no quantity has gone negative. */
  predicate Valid(s: State)
  {
    Shaped(s) && s.currency >= 0.0 && s.refactorPoints >= 0.0 &&
    forall i :: 0 <= i < |s.generators| ==> s.generators[i].amount >= 0.0
  }

  /** One empty slot per configured tier. */
  function FreshGenerators(cfgs: seq<GeneratorConfig>): (gens: seq<Generator>)
    ensures |gens| == |cfgs|
    ensures forall i :: 0 <= i < |cfgs| ==> gens[i] == Generator(cfgs[i].id, 0.0, 0)
  {
    seq(|cfgs|, i requires 0 <= i < |cfgs| => Generator(cfgs[i].id, 0.0, 0))
  }

  /** A new game: nothing owned, no prestige, no challenge, no automators. */
  function InitialState(cfgs: seq<GeneratorConfig>, saveVersion: string, now: int): (s: State)
    requires WellFormedTable(cfgs)
    ensures Valid(s)
    ensures s.currency == 0.0 && s.refactorPoints == 0.0 && s.version == 0 && s.refactorCount == 0
    ensures forall i :: 0 <= i < |s.generators| ==> s.generators[i].amount == 0.0 && s.generators[i].bought == 0
    ensures s.activeChallenge == NoChallenge && !s.completions.challenge1 && !s.completions.challenge2
  {
    State(saveVersion, now, 0.0, FreshGenerators(cfgs), X1, 0.0, 0, 0,
          Completions(false, false), NoChallenge, map[], map[])
  }

  /**
   * `generators.find(g => g.id === id)?.bought ?? 0`: the units bought of
   * the first slot carrying `id`, or 0 when no slot does.
   */
  function BoughtOf(gens: seq<Generator>, id: int): (n: nat)
    ensures (exists i :: 0 <= i < |gens| && gens[i].id == id) || n == 0
    ensures forall i ::
      (0 <= i < |gens| && gens[i].id == id && forall j :: 0 <= j < i ==> gens[j].id != id) ==>
      n == gens[i].bought
  {
    match FirstIndex(gens, (g: Generator) => g.id, id)
    case None => 0
    case Some(i) => gens[i].bought
  }

  /** In a shaped store the slot of generator `id` is `id - 1`. */
  lemma BoughtOfShaped(s: State, id: int)
    requires Shaped(s) && 1 <= id <= 8
    ensures BoughtOf(s.generators, id) == s.generators[id - 1].bought
  {
  }
}

=== FILE: game_store.dfy ===
/**
 * The small actions and unlock getters of the store (app/store/game.ts:74-93,
 * 232-234, 249-266): clicking, choosing the buy multiplier, buying and
 * switching automators, and the gates that reveal each system.
 */
module GameStore {
  import opened Wrappers
  import opened Configs
  import opened GameState

  /** A click yields one unit of currency. */
  function ManualClick(s: State): (t: State)
    ensures t.currency == s.currency + 1.0
    ensures t.(currency := s.currency) == s
    ensures Valid(s) ==> Valid(t)
  {
    s.(currency := s.currency + 1.0)
  }

  function SetBuyMultiplier(s: State, m: BuyMultiplier): (t: State)
    ensures t.buyMultiplier == m && t.(buyMultiplier := s.buyMultiplier) == s
  {
    s.(buyMultiplier := m)
  }

  /**
   * Tier 1 shows once 10 currency is reached, a unit was bought or a refactor
   * happened; every other tier shows once the tier below it has been bought.
   */
  function IsGeneratorUnlocked(s: State, id: int): bool
    requires Shaped(s)
  {
    if id == 1 then s.currency >= 10.0 || s.generators[0].bought > 0 || s.refactorCount > 0
    else match FirstIndex(s.generators, (g: Generator) => g.id, id - 1)
      case None => false
      case Some(j) => s.generators[j].bought > 0
  }

  /** Refactoring is shown once 10 AI Cores were bought, and stays shown after the first refactor. */
  function IsRefactorUnlocked(s: State): bool
  {
    BoughtOf(s.generators, 8) >= RefactorUnlockAiCores || s.refactorCount > 0
  }

  /** Refactoring is allowed only with at least 10 AI Cores bought in the current run. */
  function CanRefactor(s: State): bool
  {
    BoughtOf(s.generators, 8) >= RefactorUnlockAiCores
  }

  function IsCompileUnlocked(s: State): bool
  {
    s.refactorCount >= 5
  }

  function IsAutomationUnlocked(s: State): bool
  {
    s.version > 0
  }

  function IsChallengesUnlocked(s: State): bool
  {
    s.version >= 2
  }

  function IsMultiplierUnlocked(s: State): bool
  {
    BoughtOf(s.generators, 4) > 0 || s.refactorCount > 0
  }

  /** Tiers 2 to 9 unlock exactly when the tier below has a unit bought; no other id but 1 ever unlocks. */
  lemma GeneratorUnlockChain(s: State, id: int)
    requires Shaped(s) && id != 1
    ensures IsGeneratorUnlocked(s, id) <==> 2 <= id <= 9 && s.generators[id - 2].bought > 0
  {
    if 2 <= id <= 9 {
      assert s.generators[id - 2].id == id - 1;
    }
  }

  /** The gates are nested: permission implies visibility, and challenges come after automation. */
  lemma UnlockGatesNested(s: State)
    ensures CanRefactor(s) ==> IsRefactorUnlocked(s)
    ensures IsChallengesUnlocked(s) ==> IsAutomationUnlocked(s)
    ensures s.refactorCount > 0 ==> IsRefactorUnlocked(s) && IsMultiplierUnlocked(s)
  {
  }

  /** After a first refactor, tier 1 stays visible even with no currency and nothing bought. */
  lemma FirstTierStaysUnlocked(s: State)
    requires Shaped(s) && s.refactorCount > 0
    ensures IsGeneratorUnlocked(s, 1)
  {
  }

  /**
   * Buy automator `id` with refactor points: refused before automation is
   * unlocked, when already bought, or when the points do not cover its
   * price; otherwise the price is debited and the automator is bought and
   * switched on. The price table is a parameter.
   */
  function PurchaseAutomator(s: State, id: int, costOf: int -> real): (t: State)
    ensures var ok := IsAutomationUnlocked(s) && !Flag(s.purchasedAutomators, id) && s.refactorPoints >= costOf(id);
      if ok then
        t.refactorPoints == s.refactorPoints - costOf(id) &&
        Flag(t.purchasedAutomators, id) && Flag(t.automatorStates, id) &&
        t.(refactorPoints := s.refactorPoints, purchasedAutomators := s.purchasedAutomators,
           automatorStates := s.automatorStates) == s
      else t == s
    ensures Valid(s) ==> Valid(t)
  {
    if !IsAutomationUnlocked(s) || Flag(s.purchasedAutomators, id) then s
    else if s.refactorPoints >= costOf(id) then
      s.(refactorPoints := s.refactorPoints - costOf(id),
         purchasedAutomators := s.purchasedAutomators[id := true],
         automatorStates := s.automatorStates[id := true])
    else s
  }

  /** An automator is paid for at most once: a second purchase changes nothing. */
  lemma PurchaseAutomatorOnce(s: State, id: int, costOf: int -> real)
    ensures PurchaseAutomator(PurchaseAutomator(s, id, costOf), id, costOf) == PurchaseAutomator(s, id, costOf)
  {
  }

  /** Switch a bought automator on or off; an automator not bought is left alone. */
  function ToggleAutomator(s: State, id: int): (t: State)
    ensures Flag(s.purchasedAutomators, id) ==> Flag(t.automatorStates, id) == !Flag(s.automatorStates, id)
    ensures !Flag(s.purchasedAutomators, id) ==> t == s
    ensures t.(automatorStates := s.automatorStates) == s
    ensures forall j :: j != id ==> Flag(t.automatorStates, j) == Flag(s.automatorStates, j)
  {
    if !Flag(s.purchasedAutomators, id) then s
    else s.(automatorStates := s.automatorStates[id := !Flag(s.automatorStates, id)])
  }

  /** Toggling twice restores whether the automator runs. */
  lemma ToggleTwiceRestores(s: State, id: int, j: int)
    ensures Flag(ToggleAutomator(ToggleAutomator(s, id), id).automatorStates, j) == Flag(s.automatorStates, j)
  {
  }
}

=== FILE: generator_system.dfy ===
/**
 * The prototype's generator system (nuxt-vitest-project/game/systems/generator.ts):
 * the price of more units summed one unit at a time, the production rate of
 * one generator, the buy action over the player and generator stores, and
 * the production step that pays every generator's rate into the money.
 */
module GeneratorSystem {
  import opened Wrappers
  import opened Numeric
  import opened PlayerStore
  import opened GeneratorsStore

  /** The balance values the system reads: one base price, growth factor and output for every generator. */
  datatype Tuning = Tuning(baseCost: real, costMultiplier: real, baseProduction: real)

  /** The unit count `find` reports for `id`: what it holds, or 0 when the id is not in the list. */
  function HeldBefore(gens: seq<OwnedGenerator>, id: int): nat
  {
    GetGeneratorQuantity(gens, id)
  }

  /**
   * The price of `n` more units of `id`: the sum, one unit at a time, of
   * baseCost*costMultiplier^(q+i) for i below n, where q is what is held
   * (0 for an id not in the list): the geometric series, whose closed form
   * B*r^q*(r^n - 1)/(r - 1) is `Numeric.GeometricSumClosedForm`.
   */
  method GetGeneratorCost(t: Tuning, gens: seq<OwnedGenerator>, id: int, n: nat) returns (cost: real)
    ensures cost == GeometricSum(t.baseCost, t.costMultiplier, HeldBefore(gens, id), n)
    ensures n == 0 ==> cost == 0.0
    ensures n == 1 ==> cost == t.baseCost * Pow(t.costMultiplier, HeldBefore(gens, id))
  {
    var q := HeldBefore(gens, id);
    cost := 0.0;
    var i := 0;
    while i < n
      invariant 0 <= i <= n
      invariant cost == GeometricSum(t.baseCost, t.costMultiplier, q, i)
    {
      cost := cost + t.baseCost * Pow(t.costMultiplier, q + i);
      i := i + 1;
    }
  }

  /** The test scenarios: with base price 10 and factor 1.1, one unit from none costs 10 and two after one cost 11 + 12.1. */
  lemma CostScenarios()
    ensures GeometricSum(10.0, 1.1, 0, 0) == 0.0
    ensures GeometricSum(10.0, 1.1, 0, 1) == 10.0
    ensures GeometricSum(10.0, 1.1, 1, 2) == 23.1
  {
    assert Pow(1.1, 2) == 1.21 by {
      assert Pow(1.1, 1) == 1.1;
    }
  }

  /** The output of one record: base output times units held times level. */
  function RecordRate(t: Tuning, g: OwnedGenerator): real
  {
    t.baseProduction * (g.quantity as real) * (g.level as real)
  }

  /** The rate of `id`: 0 when the id is not in the list, otherwise the output of its first record. */
  function GetGeneratorProductionRate(t: Tuning, gens: seq<OwnedGenerator>, id: int): (r: real)
    ensures (forall i :: 0 <= i < |gens| ==> gens[i].id != id) ==> r == 0.0
    ensures forall i: nat {:trigger FirstRecord(gens, id, i)} :: FirstRecord(gens, id, i) ==> r == RecordRate(t, gens[i])
  {
    match GetGenerator(gens, id)
    case None => 0.0
    case Some(g) => RecordRate(t, g)
  }

  /** The test scenario: 5 units at level 2 with base output 1 make 10. */
  lemma ProductionRateScenario()
    ensures GetGeneratorProductionRate(Tuning(10.0, 1.1, 1.0), [OwnedGenerator(1, 2, 5, 0.0)], 1) == 10.0
  {
    assert FirstRecord([OwnedGenerator(1, 2, 5, 0.0)], 1, 0);
  }

  /** Every record's stored rate is the output its units and level give. */
  predicate RatesCurrent(t: Tuning, gens: seq<OwnedGenerator>)
  {
    forall i :: 0 <= i < |gens| ==> gens[i].productionRate == RecordRate(t, gens[i])
  }

  /** A new game's list has current rates: nothing held, nothing produced. */
  lemma InitialRatesCurrent(t: Tuning, ids: seq<int>)
    ensures RatesCurrent(t, CreateInitialGenerators(ids))
  {
    var gens := CreateInitialGenerators(ids);
    forall i | 0 <= i < |gens| ensures gens[i].productionRate == RecordRate(t, gens[i]) {
      assert gens[i].quantity == 0;
    }
  }

  /** The outcome of a buy: both stores afterwards and whether the purchase went through. */
  datatype Purchase = Purchase(player: Player, generators: seq<OwnedGenerator>, ok: bool)

  /**
   * Buy `n` units of `id` as written: the price is debited when the money
   * covers it, then the units are added and the rate of `id` is recomputed.
   * A refused debit changes nothing. An id not in the list still has its
   * price debited, and nothing is added.
   */
  method BuyGenerator(t: Tuning, p: Player, gens: seq<OwnedGenerator>, id: int, n: nat) returns (b: Purchase)
    ensures var cost := GeometricSum(t.baseCost, t.costMultiplier, HeldBefore(gens, id), n);
      (b.ok <==> p.money >= cost) &&
      (b.ok ==> b.player == p.(money := p.money - cost)) &&
      (!b.ok ==> b.player == p && b.generators == gens)
    ensures (forall i :: 0 <= i < |gens| ==> gens[i].id != id) ==> b.generators == gens
    ensures forall i: nat {:trigger FirstRecord(gens, id, i)} :: FirstRecord(gens, id, i) && b.ok ==>
      var g := gens[i].(quantity := gens[i].quantity + n);
      b.generators == gens[i := g.(productionRate := RecordRate(t, g))]
    ensures RatesCurrent(t, gens) ==> RatesCurrent(t, b.generators)
    ensures p.money >= 0.0 ==> b.player.money >= 0.0
  {
    var cost := GetGeneratorCost(t, gens, id, n);
    var d := DeductMoney(p, cost);
    if d.ok {
      var added := AddGenerator(gens, id, n);
      var rate := GetGeneratorProductionRate(t, added, id);
      var updated := UpdateGeneratorProductionRate(added, id, rate);
      BuyUpdatesFirstRecord(t, gens, id, n);
      b := Purchase(d.player, updated, true);
    } else {
      b := Purchase(p, gens, false);
    }
  }

  /** What a successful buy does to the generator list: the first record of `id` gains the units and its new rate. */
  lemma BuyUpdatesFirstRecord(t: Tuning, gens: seq<OwnedGenerator>, id: int, n: nat)
    ensures var added := AddGenerator(gens, id, n);
      var updated := UpdateGeneratorProductionRate(added, id, GetGeneratorProductionRate(t, added, id));
      ((forall i :: 0 <= i < |gens| ==> gens[i].id != id) ==> updated == gens) &&
      (forall i: nat {:trigger FirstRecord(gens, id, i)} :: FirstRecord(gens, id, i) ==>
        var g := gens[i].(quantity := gens[i].quantity + n);
        updated == gens[i := g.(productionRate := RecordRate(t, g))]) &&
      (RatesCurrent(t, gens) ==> RatesCurrent(t, updated))
  {
    var added := AddGenerator(gens, id, n);
    var updated := UpdateGeneratorProductionRate(added, id, GetGeneratorProductionRate(t, added, id));
    AbsentOrFirst(gens, id);
    if i: nat :| FirstRecord(gens, id, i) {
      var g := gens[i].(quantity := gens[i].quantity + n);
      AddAtFirstRecord(gens, id, i, n);
      FirstRecordStable(gens, i, g, id, i);
      assert updated == gens[i := g.(productionRate := RecordRate(t, g))];
      forall j: nat | FirstRecord(gens, id, j) ensures j == i {
        FindIsFirstRecord(gens, id, j);
        FindIsFirstRecord(gens, id, i);
      }
    }
  }

  /** The sum of the stored rates, from the last record down. */
  function RateSum(gens: seq<OwnedGenerator>): real
  {
    if |gens| == 0 then 0.0 else RateSum(gens[..|gens| - 1]) + gens[|gens| - 1].productionRate
  }

  /** The sum of what every record's units and level make, from the last record down. */
  function OutputSum(t: Tuning, gens: seq<OwnedGenerator>): real
  {
    if |gens| == 0 then 0.0 else OutputSum(t, gens[..|gens| - 1]) + RecordRate(t, gens[|gens| - 1])
  }

  /** When the rates are current, the stored rates add up to what the units and levels make. */
  lemma {:induction false} CurrentRatesSumToOutput(t: Tuning, gens: seq<OwnedGenerator>)
    requires RatesCurrent(t, gens)
    ensures RateSum(gens) == OutputSum(t, gens)
  {
    if |gens| > 0 {
      var front := gens[..|gens| - 1];
      assert RatesCurrent(t, front) by {
        forall i | 0 <= i < |front| ensures front[i].productionRate == RecordRate(t, front[i]) {
          assert front[i] == gens[i];
        }
      }
      CurrentRatesSumToOutput(t, front);
    }
  }

  /** The outcome of a production step: the player afterwards and the amount produced. */
  datatype Production = Production(player: Player, produced: real)

  /**
   * Pay every generator's stored rate into the money and report the sum;
   * with no generators nothing is paid. The generator list is only read.
   */
  method ProduceAllGenerators(p: Player, gens: seq<OwnedGenerator>) returns (r: Production)
    ensures r.produced == RateSum(gens)
    ensures r.player == AddMoney(p, RateSum(gens))
    ensures |gens| == 0 ==> r == Production(p, 0.0)
  {
    var total := 0.0;
    var i := 0;
    while i < |gens|
      invariant 0 <= i <= |gens|
      invariant total == RateSum(gens[..i])
    {
      assert gens[..i + 1][..i] == gens[..i];
      total := total + gens[i].productionRate;
      i := i + 1;
    }
    assert gens[..|gens|] == gens;
    r := Production(AddMoney(p, total), total);
  }

  /** The test scenario: rates 5 and 10 produce 15. */
  lemma ProduceScenario()
    ensures RateSum([OwnedGenerator(1, 1, 1, 5.0), OwnedGenerator(2, 1, 1, 10.0)]) == 15.0
  {
    var gens := [OwnedGenerator(1, 1, 1, 5.0), OwnedGenerator(2, 1, 1, 10.0)];
    assert gens[..1][..0] == [];
  }

  /**
   * The buy as the tests expect it: the price is debited when the money
   * covers it, and then the units always arrive -- an id not in the list
   * gets a new record holding them, with its rate computed -- so money is
   * never spent without the held quantity growing by the units bought.
   */
  method CreatingBuyGenerator(t: Tuning, p: Player, gens: seq<OwnedGenerator>, id: int, n: nat) returns (b: Purchase)
    ensures var cost := GeometricSum(t.baseCost, t.costMultiplier, HeldBefore(gens, id), n);
      (b.ok <==> p.money >= cost) &&
      (b.ok ==> b.player == p.(money := p.money - cost) && HeldBefore(b.generators, id) == HeldBefore(gens, id) + n) &&
      (!b.ok ==> b.player == p && b.generators == gens)
    ensures b.ok && (forall i :: 0 <= i < |gens| ==> gens[i].id != id) ==>
      var g := OwnedGenerator(id, 1, n, 0.0);
      b.generators == gens + [g.(productionRate := RecordRate(t, g))]
    ensures forall i: nat {:trigger FirstRecord(gens, id, i)} :: FirstRecord(gens, id, i) && b.ok ==>
      var g := gens[i].(quantity := gens[i].quantity + n);
      b.generators == gens[i := g.(productionRate := RecordRate(t, g))]
    ensures RatesCurrent(t, gens) ==> RatesCurrent(t, b.generators)
  {
    var cost := GetGeneratorCost(t, gens, id, n);
    var d := DeductMoney(p, cost);
    if d.ok {
      var added := AddOrCreateGenerator(gens, id, n);
      var rate := GetGeneratorProductionRate(t, added, id);
      var updated := UpdateGeneratorProductionRate(added, id, rate);
      AbsentOrFirst(gens, id);
      if i: nat :| FirstRecord(gens, id, i) {
        BuyUpdatesFirstRecord(t, gens, id, n);
        var g := gens[i].(quantity := gens[i].quantity + n);
        FirstRecordStable(gens, i, g.(productionRate := RecordRate(t, g)), id, i);
      } else {
        CreateUpdatesNewRecord(t, gens, id, n);
      }
      b := Purchase(d.player, updated, true);
    } else {
      b := Purchase(p, gens, false);
    }
  }

  /** A buy of an id not in the list appends its record with the rate its units make, and the stored rates stay current. */
  lemma CreateUpdatesNewRecord(t: Tuning, gens: seq<OwnedGenerator>, id: int, n: nat)
    requires forall i :: 0 <= i < |gens| ==> gens[i].id != id
    ensures var added := AddOrCreateGenerator(gens, id, n);
      var updated := UpdateGeneratorProductionRate(added, id, GetGeneratorProductionRate(t, added, id));
      var g := OwnedGenerator(id, 1, n, 0.0);
      updated == gens + [g.(productionRate := RecordRate(t, g))] &&
      HeldBefore(updated, id) == n &&
      (RatesCurrent(t, gens) ==> RatesCurrent(t, updated))
  {
    var g := OwnedGenerator(id, 1, n, 0.0);
    var added := gens + [g];
    var k := |gens|;
    assert FirstRecord(added, id, k);
    var updated := added[k := g.(productionRate := RecordRate(t, g))];
    assert UpdateGeneratorProductionRate(added, id, GetGeneratorProductionRate(t, added, id)) == updated;
    assert updated == gens + [g.(productionRate := RecordRate(t, g))];
    FirstRecordStable(added, k, g.(productionRate := RecordRate(t, g)), id, k);
  }

  /**
   * The tests' scenario: money 100, no generators, base price 10, factor
   * 1.1 and output 1; buying one unit of id 1 goes through, leaves 90 and
   * a record of one unit at level 1 making 1.
   */
  method BuyIntoEmptyStore() returns (b: Purchase)
    ensures b.ok && b.player.money == 90.0 && b.generators == [OwnedGenerator(1, 1, 1, 1.0)]
  {
    b := CreatingBuyGenerator(Tuning(10.0, 1.1, 1.0), Player(100.0, 0.0, 0.0), [], 1, 1);
  }

  /**
   * The written buy takes money for an id not in the list: with 1000 money,
   * base price 10 and factor 1.15, buying one unit of id 7 from a list
   * without it goes through, debits 10 and adds nothing.
   */
  method UnknownIdIsCharged() returns (b: Purchase)
    ensures b.ok && b.player.money == 990.0 && b.generators == [OwnedGenerator(1, 1, 0, 0.0)]
  {
    b := BuyGenerator(Tuning(10.0, 1.15, 1.0), Player(1000.0, 0.0, 0.0), [OwnedGenerator(1, 1, 0, 0.0)], 7, 1);
  }
}

=== FILE: generators_store.dfy ===
/**
 * The prototype's generator store (nuxt-vitest-project/game/state/generatorsStore.ts):
 * one record per configured generator, looked up by id with `find`, so an
 * operation on an id touches the first record carrying it and an id not in
 * the list touches nothing.
 */
module GeneratorsStore {
  import opened Wrappers

  /** A generator the player holds: its level, how many units, and the rate last computed for it. */
  datatype OwnedGenerator = OwnedGenerator(id: int, level: int, quantity: nat, productionRate: real)

  function OwnedId(g: OwnedGenerator): int
  {
    g.id
  }

  /** The generator list of a new game: one record per configured id, at level 1 with nothing held or produced. */
  function CreateInitialGenerators(ids: seq<int>): (gens: seq<OwnedGenerator>)
    ensures |gens| == |ids|
    ensures forall i :: 0 <= i < |ids| ==>
      gens[i].id == ids[i] && gens[i].level == 1 && gens[i].quantity == 0 && gens[i].productionRate == 0.0
  {
    seq(|ids|, i requires 0 <= i < |ids| => OwnedGenerator(ids[i], 1, 0, 0.0))
  }

  /** Whether slot `i` is the first record of `id`, the one `find` returns. */
  predicate FirstRecord(gens: seq<OwnedGenerator>, id: int, i: nat)
  {
    i < |gens| && gens[i].id == id && forall j :: 0 <= j < i ==> gens[j].id != id
  }

  /** `find` returns the first record of `id`. */
  lemma FindIsFirstRecord(gens: seq<OwnedGenerator>, id: int, i: nat)
    requires FirstRecord(gens, id, i)
    ensures FirstIndex(gens, OwnedId, id) == Some(i)
  {
    assert OwnedId(gens[i]) == id;
  }

  /** The record `find` returns for `id`, if any. */
  function GetGenerator(gens: seq<OwnedGenerator>, id: int): (r: Option<OwnedGenerator>)
    ensures r.None? <==> forall i :: 0 <= i < |gens| ==> gens[i].id != id
    ensures forall i: nat {:trigger FirstRecord(gens, id, i)} :: FirstRecord(gens, id, i) ==> r == Some(gens[i])
  {
    match FirstIndex(gens, OwnedId, id)
    case None => None
    case Some(i) =>
      forall j: nat | FirstRecord(gens, id, j) ensures j == i {
        FindIsFirstRecord(gens, id, j);
      }
      Some(gens[i])
  }

  /** How many units of `id` are held; 0 for an id not in the list. */
  function GetGeneratorQuantity(gens: seq<OwnedGenerator>, id: int): (q: nat)
    ensures (forall i :: 0 <= i < |gens| ==> gens[i].id != id) ==> q == 0
    ensures forall i: nat {:trigger FirstRecord(gens, id, i)} :: FirstRecord(gens, id, i) ==> q == gens[i].quantity
  {
    match GetGenerator(gens, id)
    case None => 0
    case Some(g) => g.quantity
  }

  /** Add `amount` units to the first record of `id`; an id not in the list changes nothing. */
  function AddGenerator(gens: seq<OwnedGenerator>, id: int, amount: nat): (r: seq<OwnedGenerator>)
    ensures |r| == |gens|
    ensures (forall i :: 0 <= i < |gens| ==> gens[i].id != id) ==> r == gens
    ensures forall i: nat {:trigger FirstRecord(gens, id, i)} :: FirstRecord(gens, id, i) ==>
      r == gens[i := gens[i].(quantity := gens[i].quantity + amount)]
  {
    match FirstIndex(gens, OwnedId, id)
    case None => gens
    case Some(i) =>
      assert FirstRecord(gens, id, i);
      forall j | FirstRecord(gens, id, j) ensures j == i {
        FindIsFirstRecord(gens, id, j);
      }
      gens[i := gens[i].(quantity := gens[i].quantity + amount)]
  }

  /**
   * The add the generator system's tests stand in for the store: an id not
   * in the list gets a new record -- level 1, no rate yet -- holding the
   * units added; a present id is added to as `AddGenerator` does.
   */
  function AddOrCreateGenerator(gens: seq<OwnedGenerator>, id: int, amount: nat): (r: seq<OwnedGenerator>)
    ensures (forall i :: 0 <= i < |gens| ==> gens[i].id != id) ==> r == gens + [OwnedGenerator(id, 1, amount, 0.0)]
    ensures (exists i :: 0 <= i < |gens| && gens[i].id == id) ==> r == AddGenerator(gens, id, amount)
    ensures GetGeneratorQuantity(r, id) == GetGeneratorQuantity(gens, id) + amount
  {
    match FirstIndex(gens, OwnedId, id)
    case None =>
      var r := gens + [OwnedGenerator(id, 1, amount, 0.0)];
      assert FirstRecord(r, id, |gens|);
      r
    case Some(i) =>
      assert FirstRecord(gens, id, i);
      AddGeneratorReadsBack(gens, id, i, amount);
      AddGenerator(gens, id, amount)
  }

  /** Set the production rate of the first record of `id`; an id not in the list changes nothing. */
  function UpdateGeneratorProductionRate(gens: seq<OwnedGenerator>, id: int, rate: real): (r: seq<OwnedGenerator>)
    ensures |r| == |gens|
    ensures (forall i :: 0 <= i < |gens| ==> gens[i].id != id) ==> r == gens
    ensures forall i: nat {:trigger FirstRecord(gens, id, i)} :: FirstRecord(gens, id, i) ==> r == gens[i := gens[i].(productionRate := rate)]
  {
    match FirstIndex(gens, OwnedId, id)
    case None => gens
    case Some(i) =>
      assert FirstRecord(gens, id, i);
      forall j | FirstRecord(gens, id, j) ensures j == i {
        FindIsFirstRecord(gens, id, j);
      }
      gens[i := gens[i].(productionRate := rate)]
  }

  /** Replacing a record by one with the same id never changes which record is first for an id. */
  lemma FirstRecordStable(gens: seq<OwnedGenerator>, k: nat, g: OwnedGenerator, id: int, i: nat)
    requires k < |gens| && g.id == gens[k].id
    ensures FirstRecord(gens, id, i) <==> FirstRecord(gens[k := g], id, i)
  {
    var r := gens[k := g];
    assert forall j :: 0 <= j < |gens| ==> r[j].id == gens[j].id;
  }

  /** Either no record carries `id`, or one of them is the first. */
  lemma AbsentOrFirst(gens: seq<OwnedGenerator>, id: int)
    ensures (forall i :: 0 <= i < |gens| ==> gens[i].id != id) || exists i: nat :: FirstRecord(gens, id, i)
  {
    match FirstIndex(gens, OwnedId, id)
    case None =>
    case Some(k) => assert FirstRecord(gens, id, k);
  }

  /**
   * Adds accumulate: adding `a` then `b` units is adding `a + b`, whether
   * or not the id is in the list.
   */
  lemma AddGeneratorAccumulates(gens: seq<OwnedGenerator>, id: int, a: nat, b: nat)
    ensures AddGenerator(AddGenerator(gens, id, a), id, b) == AddGenerator(gens, id, a + b)
  {
    AbsentOrFirst(gens, id);
    if i: nat :| FirstRecord(gens, id, i) {
      AddTwiceAt(gens, id, i, a, b);
    }
  }

  lemma AddTwiceAt(gens: seq<OwnedGenerator>, id: int, i: nat, a: nat, b: nat)
    requires FirstRecord(gens, id, i)
    ensures AddGenerator(AddGenerator(gens, id, a), id, b) == AddGenerator(gens, id, a + b)
  {
    var gi := gens[i];
    var g1 := gens[i := gi.(quantity := gi.quantity + a)];
    AddAtFirstRecord(gens, id, i, a);
    AddAtFirstRecord(gens, id, i, a + b);
    FirstRecordStable(gens, i, gi.(quantity := gi.quantity + a), id, i);
    AddAtFirstRecord(g1, id, i, b);
    assert g1[i := g1[i].(quantity := g1[i].quantity + b)] == gens[i := gi.(quantity := gi.quantity + (a + b))];
  }

  /** The quantity read back after an add to a present id has grown by exactly the amount added. */
  lemma AddGeneratorReadsBack(gens: seq<OwnedGenerator>, id: int, i: nat, a: nat)
    requires FirstRecord(gens, id, i)
    ensures GetGeneratorQuantity(AddGenerator(gens, id, a), id) == GetGeneratorQuantity(gens, id) + a
  {
    var gi := gens[i];
    AddAtFirstRecord(gens, id, i, a);
    FirstRecordStable(gens, i, gi.(quantity := gi.quantity + a), id, i);
  }

  /** Adding to an id that has a first record changes exactly that record. */
  lemma AddAtFirstRecord(gens: seq<OwnedGenerator>, id: int, i: nat, amount: nat)
    requires FirstRecord(gens, id, i)
    ensures AddGenerator(gens, id, amount) == gens[i := gens[i].(quantity := gens[i].quantity + amount)]
  {
  }

  /** The store test: on a list holding id 0, adding 5 then 3 reads back 8. */
  lemma AddFiveThenThree(ids: seq<int>)
    requires |ids| > 0 && ids[0] == 0
    ensures var gens := AddGenerator(AddGenerator(CreateInitialGenerators(ids), 0, 5), 0, 3);
      GetGeneratorQuantity(gens, 0) == 8
  {
    var gens := CreateInitialGenerators(ids);
    assert FirstRecord(gens, 0, 0);
    AddTwiceAt(gens, 0, 0, 5, 3);
    AddGeneratorReadsBack(gens, 0, 0, 8);
  }

  /** A rate just set is the rate read back. */
  lemma UpdateThenGet(gens: seq<OwnedGenerator>, id: int, rate: real, i: nat)
    requires FirstRecord(gens, id, i)
    ensures GetGenerator(UpdateGeneratorProductionRate(gens, id, rate), id) == Some(gens[i].(productionRate := rate))
  {
    var r := gens[i := gens[i].(productionRate := rate)];
    assert UpdateGeneratorProductionRate(gens, id, rate) == r;
    FirstRecordStable(gens, i, gens[i].(productionRate := rate), id, i);
    FindIsFirstRecord(r, id, i);
  }

  /** Every id reads back 0 units in a new game. */
  lemma InitialQuantitiesZero(ids: seq<int>)
    ensures forall id :: GetGeneratorQuantity(CreateInitialGenerators(ids), id) == 0
  {
    var r := CreateInitialGenerators(ids);
    forall id ensures GetGeneratorQuantity(r, id) == 0 {
      match FirstIndex(r, OwnedId, id)
      case None =>
      case Some(i) =>
    }
  }

  /** `$reset`: back to the list of a new game. */
  function Reset(ids: seq<int>, gens: seq<OwnedGenerator>): (r: seq<OwnedGenerator>)
    ensures |r| == |ids| && forall i :: 0 <= i < |ids| ==> r[i] == OwnedGenerator(ids[i], 1, 0, 0.0)
    ensures forall id :: GetGeneratorQuantity(r, id) == 0
  {
    InitialQuantitiesZero(ids);
    CreateInitialGenerators(ids)
  }

  /**
   * Whatever was bought before, a lookup after `$reset` finds a fresh
   * record -- level 1, nothing held, no rate -- exactly for the configured
   * ids, and nothing for any other id.
   */
  lemma ResetReadsBackNewGame(ids: seq<int>, gens: seq<OwnedGenerator>, id: int)
    ensures GetGenerator(Reset(ids, gens), id) == if id in ids then Some(OwnedGenerator(id, 1, 0, 0.0)) else None
  {
    var r := Reset(ids, gens);
    AbsentOrFirst(r, id);
    if i: nat :| FirstRecord(r, id, i) {
      assert ids[i] == id;
    } else {
      assert forall i :: 0 <= i < |ids| ==> ids[i] == r[i].id;
    }
  }
}

=== FILE: numeric.dfy ===
/**
 * Exact arithmetic the game's Decimal formulas rest on: integral powers,
 * the geometric series behind every purchase cost, and the floor of x^1.5
 * behind the prestige gain.
 */
module Numeric {

  /** r^n for a natural exponent. */
  function Pow(r: real, n: nat): real
  {
    if n == 0 then 1.0 else r * Pow(r, n - 1)
  }

  lemma {:induction false} PowAdd(r: real, a: nat, b: nat)
    ensures Pow(r, a + b) == Pow(r, a) * Pow(r, b)
    decreases b
  {
    if b > 0 {
      PowAdd(r, a, b - 1);
      assert Pow(r, a + b) == r * Pow(r, a + b - 1);
      Swap(r, Pow(r, a), Pow(r, b - 1));
    }
  }

  lemma Swap(x: real, y: real, z: real)
    ensures x * (y * z) == y * (x * z)
  {
  }

  lemma {:induction false} PowPositive(r: real, n: nat)
    requires r > 0.0
    ensures Pow(r, n) > 0.0
  {
    if n > 0 {
      PowPositive(r, n - 1);
    }
  }

  lemma {:induction false} PowAtLeastOne(r: real, n: nat)
    requires r >= 1.0
    ensures Pow(r, n) >= 1.0
  {
    if n > 0 {
      PowAtLeastOne(r, n - 1);
      assert r * Pow(r, n - 1) >= 1.0 * Pow(r, n - 1);
    }
  }

  /** Powers of a base of at least 1 never decrease with the exponent. */
  lemma {:induction false} PowMonotone(r: real, a: nat, b: nat)
    requires r >= 1.0
    requires a <= b
    ensures Pow(r, a) <= Pow(r, b)
  {
    PowAdd(r, a, b - a);
    PowAtLeastOne(r, b - a);
    PowPositive(r, a);
    assert Pow(r, a) * Pow(r, b - a) >= Pow(r, a) * 1.0;
  }

  /** Each extra unit multiplies the price by r, so r^n grows at least linearly: r^n >= 1 + n*(r - 1). */
  lemma {:induction false} PowBernoulli(r: real, n: nat)
    requires r >= 1.0
    ensures AtLeastLinear(r, n, Pow(r, n))
  {
    if n > 0 {
      PowBernoulli(r, n - 1);
      PowAtLeastOne(r, n - 1);
      BernoulliStep(r, n, Pow(r, n - 1), Pow(r, n));
    }
  }

  predicate AtLeastLinear(r: real, n: nat, p: real)
  {
    p >= 1.0 + (n as real) * (r - 1.0)
  }

  lemma BernoulliStep(r: real, n: nat, p0: real, p: real)
    requires r >= 1.0 && n > 0 && p0 >= 1.0
    requires AtLeastLinear(r, n - 1, p0)
    requires p == r * p0
    ensures AtLeastLinear(r, n, p)
  {
    assert r * p0 == p0 + (r - 1.0) * p0;
    assert (r - 1.0) * p0 >= r - 1.0;
  }

  /** With ratio above 1 the powers increase strictly. */
  lemma {:induction false} PowStrictlyIncreasing(r: real, m: nat, n: nat)
    requires r > 1.0
    requires m < n
    ensures Pow(r, m) < Pow(r, n)
    decreases n - m
  {
    PowPositive(r, n - 1);
    Grows(r, Pow(r, n - 1), Pow(r, n));
    if m < n - 1 {
      PowStrictlyIncreasing(r, m, n - 1);
    }
  }

  lemma Grows(r: real, p: real, q: real)
    requires r > 1.0 && p > 0.0
    requires q == r * p
    ensures p < q
  {
  }

  /**
   * floor(log_r x) for r > 1 and x >= 1, the exact value behind a
   * floating-point `log`: the exponent n with r^n <= x < r^(n+1).
   */
  function FloorLog(r: real, x: real): (n: nat)
    requires r > 1.0 && x >= 1.0
    ensures Pow(r, n) <= x < Pow(r, n + 1)
  {
    FloorLogFrom(r, x, 0)
  }

  /** Search upward from `n` for the floor of log_r x; r^n <= 1 + n*(r - 1) bounds the search. */
  function FloorLogFrom(r: real, x: real, n: nat): (m: nat)
    requires r > 1.0 && Pow(r, n) <= x
    ensures n <= m
    ensures Pow(r, m) <= x < Pow(r, m + 1)
    decreases ((x - 1.0) / (r - 1.0)).Floor - n
  {
    if Pow(r, n + 1) <= x then
      PowBernoulli(r, n + 1);
      LinearBound(r, n + 1, Pow(r, n + 1), x);
      FloorLogFrom(r, x, n + 1)
    else
      n
  }

  lemma LinearBound(r: real, n: nat, p: real, x: real)
    requires r > 1.0
    requires AtLeastLinear(r, n, p)
    requires p <= x
    ensures (n as real) <= (x - 1.0) / (r - 1.0)
  {
    assert (n as real) * (r - 1.0) <= x - 1.0;
    DivideBack(x - 1.0, r - 1.0, (x - 1.0) / (r - 1.0));
  }

  /** r^n <= x holds exactly for the exponents up to floor(log_r x). */
  lemma FloorLogIsLargest(r: real, x: real, n: nat)
    requires r > 1.0 && x >= 1.0
    ensures Pow(r, n) <= x <==> n <= FloorLog(r, x)
  {
    var m := FloorLog(r, x);
    if n <= m {
      PowMonotone(r, n, m);
    } else {
      PowMonotone(r, m + 1, n);
    }
  }

  /**
   * The n-unit purchase cost written as the sum of the n single-unit
   * costs B*r^(k+i), i < n: what a player pays buying one unit at a time.
   */
  function GeometricSum(b: real, r: real, k: nat, n: nat): real
  {
    if n == 0 then 0.0 else GeometricSum(b, r, k, n - 1) + b * Pow(r, k + n - 1)
  }

  /** r^k + r^(k+1) + ... + r^(k+n-1): the series with the base price factored out. */
  function PowSum(r: real, k: nat, n: nat): real
  {
    if n == 0 then 0.0 else PowSum(r, k, n - 1) + Pow(r, k + n - 1)
  }

  lemma Distrib(x: real, y: real, z: real)
    ensures x * (y + z) == x * y + x * z
  {
  }

  /** Factoring the base price out of every unit cost. */
  lemma {:induction false} GeometricSumFactors(b: real, r: real, k: nat, n: nat)
    ensures GeometricSum(b, r, k, n) == b * PowSum(r, k, n)
  {
    if n > 0 {
      GeometricSumFactors(b, r, k, n - 1);
      assert PowSum(r, k, n) == PowSum(r, k, n - 1) + Pow(r, k + n - 1);
      Distrib(b, PowSum(r, k, n - 1), Pow(r, k + n - 1));
    }
  }

  /** (r - 1)*s == hi - lo: the shape a geometric series takes once multiplied by r - 1. */
  predicate Telescoped(r: real, s: real, hi: real, lo: real)
  {
    (r - 1.0) * s == hi - lo
  }

  lemma TelescopeStep(r: real, s0: real, t: real, lo: real, s: real, hi: real)
    requires Telescoped(r, s0, t, lo)
    requires s == s0 + t
    requires hi == r * t
    ensures Telescoped(r, s, hi, lo)
  {
  }

  lemma PowUnfold(r: real, n: nat)
    ensures Pow(r, n + 1) == r * Pow(r, n)
  {
  }

  /** Multiplying the series by (r - 1) telescopes it to r^(k+n) - r^k. */
  lemma {:induction false} PowSumTelescopes(r: real, k: nat, n: nat)
    ensures Telescoped(r, PowSum(r, k, n), Pow(r, k + n), Pow(r, k))
  {
    if n > 0 {
      PowSumTelescopes(r, k, n - 1);
      PowUnfold(r, k + n - 1);
      TelescopeStep(r, PowSum(r, k, n - 1), Pow(r, k + n - 1), Pow(r, k), PowSum(r, k, n), Pow(r, k + n));
    }
  }

  /** The closed form b*p*(q - 1)/(r - 1) of a geometric series with first term b*p, ratio r and r^n = q. */
  function SeriesClosedForm(b: real, p: real, r: real, q: real): real
    requires r != 1.0
  {
    b * p * (q - 1.0) / (r - 1.0)
  }

  lemma SolveTelescoped(b: real, r: real, s: real, p: real, q: real, t: real)
    requires r != 1.0
    requires Telescoped(r, s, t, p)
    requires t == p * q
    ensures b * s == SeriesClosedForm(b, p, r, q)
  {
    Distrib(p, q, -1.0);
    DivideBack(p * (q - 1.0), r - 1.0, s);
    MulDiv(b, p * (q - 1.0), r - 1.0);
  }

  lemma DivideBack(x: real, d: real, s: real)
    requires d != 0.0
    requires d * s == x
    ensures s == x / d
  {
  }

  lemma MulDiv(b: real, x: real, d: real)
    requires d != 0.0
    ensures b * (x / d) == b * x / d
  {
  }

  /** The closed form B*r^k*(r^n - 1)/(r - 1) is the series, for every ratio other than 1. */
  lemma {:induction false} GeometricSumClosedForm(b: real, r: real, k: nat, n: nat)
    requires r != 1.0
    ensures GeometricSum(b, r, k, n) == SeriesClosedForm(b, Pow(r, k), r, Pow(r, n))
  {
    GeometricSumFactors(b, r, k, n);
    PowSumTelescopes(r, k, n);
    PowAdd(r, k, n);
    SolveTelescoped(b, r, PowSum(r, k, n), Pow(r, k), Pow(r, n), Pow(r, k + n));
  }

  /**
   * floor(x^1.5) for x >= 0: the largest natural g with g*g <= x*x*x.
   * (g <= x^1.5 exactly when g^2 <= x^3, both sides being non-negative.)
   */
  function FloorPow15(x: real): (g: nat)
    requires x >= 0.0
    ensures ((g * g) as real) <= x * x * x < (((g + 1) * (g + 1)) as real)
  {
    assert x * x * x >= 0.0 by {
      assert x * x >= 0.0;
    }
    LargestSquareBelow(x * x * x, 0)
  }

  /** Search upward from `g` for the largest natural whose square is at most `c`. */
  function LargestSquareBelow(c: real, g: nat): (r: nat)
    requires ((g * g) as real) <= c
    ensures g <= r
    ensures ((r * r) as real) <= c < (((r + 1) * (r + 1)) as real)
    decreases c.Floor - g
  {
    if (((g + 1) * (g + 1)) as real) <= c then
      assert g + 1 <= (g + 1) * (g + 1);
      LargestSquareBelow(c, g + 1)
    else
      g
  }

  /** The square bracket g*g <= c < (g+1)^2 pins g down. */
  lemma SquareBracketUnique(c: real, a: nat, b: nat)
    requires ((a * a) as real) <= c < (((a + 1) * (a + 1)) as real)
    requires ((b * b) as real) <= c < (((b + 1) * (b + 1)) as real)
    ensures a == b
  {
    if a < b {
      SquareMonotone(a + 1, b);
    } else if b < a {
      SquareMonotone(b + 1, a);
    }
  }

  lemma SquareMonotone(a: nat, b: nat)
    requires a <= b
    ensures a * a <= b * b
  {
    assert a * a <= a * b;
    assert a * b <= b * b;
  }

  lemma CubeMonotone(x: real, y: real)
    requires 0.0 <= x <= y
    ensures x * x * x <= y * y * y
  {
    assert x * x <= x * y;
    assert x * y <= y * y;
    assert x * x * x <= y * y * x;
    assert y * y * x <= y * y * y;
  }

  /** floor(x^1.5) never decreases as x grows. */
  lemma FloorPow15Monotone(x: real, y: real)
    requires 0.0 <= x <= y
    ensures FloorPow15(x) <= FloorPow15(y)
  {
    var a := FloorPow15(x);
    var b := FloorPow15(y);
    CubeMonotone(x, y);
    if b < a {
      SquareMonotone(b + 1, a);
    }
  }
}

=== FILE: paradigms.dfy ===
/**
 * The paradigm tech tree (game/paradigms.configs.ts) and the purchase rule
 * the store's tests hold it to (app/store/game.test.ts:155-188): a paradigm
 * is bought with singularity power once every paradigm it requires is owned,
 * and at most once.
 */
module Paradigms {
  import opened Wrappers

  /** One node of the tree: its id, its price in singularity power and the ids it requires. */
  datatype Paradigm = Paradigm(id: string, cost: nat, prerequisites: seq<string>)

  /** The tree: three foundational paradigms, then two specialisations. */
  const ParadigmConfigs: seq<Paradigm> := [
    Paradigm("procedural", 1, []),
    Paradigm("oop", 1, []),
    Paradigm("functional", 1, []),
    Paradigm("structured", 3, ["procedural"]),
    Paradigm("declarative", 5, ["functional", "oop"])
  ]

  /** No two paradigms share an id. */
  predicate IdsUnique(cfgs: seq<Paradigm>)
  {
    forall i, j :: 0 <= i < j < |cfgs| ==> cfgs[i].id != cfgs[j].id
  }

  /** Every required id names a paradigm listed before the one requiring it, so the tree has no cycle. */
  predicate RequiresEarlier(cfgs: seq<Paradigm>)
  {
    forall i, k :: 0 <= i < |cfgs| && 0 <= k < |cfgs[i].prerequisites| ==>
      exists j :: 0 <= j < i && cfgs[j].id == cfgs[i].prerequisites[k]
  }

  lemma ParadigmIdsUnique()
    ensures IdsUnique(ParadigmConfigs)
  {
  }

  /** The foundational paradigms require nothing. */
  lemma TierOneHasNoRequires()
    ensures forall i :: 0 <= i < 3 ==> ParadigmConfigs[i].prerequisites == []
    ensures ParadigmConfigs[0].id == "procedural" && ParadigmConfigs[1].id == "oop" && ParadigmConfigs[2].id == "functional"
  {
  }

  /** The tree's edges: structured needs procedural; declarative needs functional and oop. */
  lemma ParadigmEdges()
    ensures RequiresEarlier(ParadigmConfigs)
    ensures ParadigmConfigs[3].id == "structured" && ParadigmConfigs[3].prerequisites == ["procedural"]
    ensures ParadigmConfigs[4].id == "declarative" && ParadigmConfigs[4].prerequisites == ["functional", "oop"]
  {
    var c := ParadigmConfigs;
    assert c[3].prerequisites[0] == c[0].id;
    assert c[4].prerequisites[0] == c[2].id;
    assert c[4].prerequisites[1] == c[1].id;
  }

  /** Index of the first paradigm with id `id`, if any. */
  function ParadigmIndex(cfgs: seq<Paradigm>, id: string): (r: Option<nat>)
    ensures r.None? ==> forall i :: 0 <= i < |cfgs| ==> cfgs[i].id != id
    ensures r.Some? ==> r.value < |cfgs| && cfgs[r.value].id == id
    ensures r.Some? ==> forall i :: 0 <= i < r.value ==> cfgs[i].id != id
  {
    if |cfgs| == 0 then None
    else if cfgs[0].id == id then Some(0)
    else match ParadigmIndex(cfgs[1..], id)
      case None => None
      case Some(j) => Some(j + 1)
  }

  /** What the player holds: singularity power and the set of paradigms owned. */
  datatype TreeState = TreeState(sp: real, owned: set<string>)

  predicate PrerequisitesMet(p: Paradigm, owned: set<string>)
  {
    forall k :: 0 <= k < |p.prerequisites| ==> p.prerequisites[k] in owned
  }

  /**
   * Buy paradigm `id`: refused for an id not in the tree, when already
   * owned, when a prerequisite is missing, or when the singularity power
   * does not cover the price; otherwise the price is debited and the
   * paradigm is owned.
   */
  function PurchaseParadigm(cfgs: seq<Paradigm>, s: TreeState, id: string): (t: TreeState)
    ensures id in s.owned ==> t == s
    ensures (forall i :: 0 <= i < |cfgs| ==> cfgs[i].id != id) ==> t == s
    ensures t == s || (id !in s.owned && t.owned == s.owned + {id})
    ensures t != s ==>
      exists i :: 0 <= i < |cfgs| && cfgs[i].id == id && PrerequisitesMet(cfgs[i], s.owned) &&
        s.sp >= cfgs[i].cost as real && t.sp == s.sp - cfgs[i].cost as real
    ensures s.sp >= 0.0 ==> t.sp >= 0.0
  {
    match ParadigmIndex(cfgs, id)
    case None => s
    case Some(i) =>
      var p := cfgs[i];
      if id in s.owned || !PrerequisitesMet(p, s.owned) || s.sp < p.cost as real then s
      else TreeState(s.sp - p.cost as real, s.owned + {id})
  }

  /** With ids unique, the rule in full: exactly when the paradigm can be bought is it bought, at its price. */
  lemma PurchaseRule(cfgs: seq<Paradigm>, s: TreeState, i: nat)
    requires IdsUnique(cfgs) && i < |cfgs|
    ensures var p := cfgs[i];
      var t := PurchaseParadigm(cfgs, s, p.id);
      if p.id !in s.owned && PrerequisitesMet(p, s.owned) && s.sp >= p.cost as real
      then t == TreeState(s.sp - p.cost as real, s.owned + {p.id})
      else t == s
  {
    var r := ParadigmIndex(cfgs, cfgs[i].id);
    assert r.Some? && r.value == i;
  }

  /** A paradigm is paid for at most once: buying it again changes nothing. */
  lemma PurchaseTwiceIsOnce(cfgs: seq<Paradigm>, s: TreeState, id: string)
    ensures PurchaseParadigm(cfgs, PurchaseParadigm(cfgs, s, id), id) == PurchaseParadigm(cfgs, s, id)
  {
  }

  /** Every owned paradigm of the tree has all of its prerequisites owned. */
  predicate ClosedUnderRequires(cfgs: seq<Paradigm>, owned: set<string>)
  {
    forall i :: 0 <= i < |cfgs| && cfgs[i].id in owned ==> PrerequisitesMet(cfgs[i], owned)
  }

  /** Purchases keep the owned set closed under the tree's edges. */
  lemma PurchaseKeepsClosed(cfgs: seq<Paradigm>, s: TreeState, id: string)
    requires IdsUnique(cfgs) && ClosedUnderRequires(cfgs, s.owned)
    ensures ClosedUnderRequires(cfgs, PurchaseParadigm(cfgs, s, id).owned)
  {
    var t := PurchaseParadigm(cfgs, s, id);
    if t != s {
      forall i | 0 <= i < |cfgs| && cfgs[i].id in t.owned
        ensures PrerequisitesMet(cfgs[i], t.owned)
      {
        if cfgs[i].id == id {
          var j :| 0 <= j < |cfgs| && cfgs[j].id == id && PrerequisitesMet(cfgs[j], s.owned);
          assert i == j;
        }
      }
    }
  }

  /** The store's test scenarios for procedural: no power buys nothing; 10 buys it and leaves 9; a second purchase debits nothing. */
  lemma ProceduralScenarios()
    ensures PurchaseParadigm(ParadigmConfigs, TreeState(0.0, {}), "procedural") == TreeState(0.0, {})
    ensures PurchaseParadigm(ParadigmConfigs, TreeState(10.0, {}), "procedural") == TreeState(9.0, {"procedural"})
    ensures PurchaseParadigm(ParadigmConfigs, TreeState(9.0, {"procedural"}), "procedural") == TreeState(9.0, {"procedural"})
  {
    ParadigmIdsUnique();
    TierOneHasNoRequires();
    PurchaseRule(ParadigmConfigs, TreeState(0.0, {}), 0);
    PurchaseRule(ParadigmConfigs, TreeState(10.0, {}), 0);
  }

  /** The store's test scenarios for structured: refused until procedural is owned, then it costs 3. */
  lemma StructuredScenarios()
    ensures PurchaseParadigm(ParadigmConfigs, TreeState(10.0, {}), "structured") == TreeState(10.0, {})
    ensures PurchaseParadigm(ParadigmConfigs, TreeState(10.0, {"procedural"}), "structured")
      == TreeState(7.0, {"procedural", "structured"})
  {
    ParadigmIdsUnique();
    ParadigmEdges();
    MissingPrerequisiteRefused(ParadigmConfigs, TreeState(10.0, {}), 3, 0);
    assert PrerequisitesMet(ParadigmConfigs[3], {"procedural"});
    PurchaseRule(ParadigmConfigs, TreeState(10.0, {"procedural"}), 3);
  }

  /** A paradigm with a prerequisite not owned is refused, whatever the power. */
  lemma MissingPrerequisiteRefused(cfgs: seq<Paradigm>, s: TreeState, i: nat, k: nat)
    requires IdsUnique(cfgs) && i < |cfgs| && k < |cfgs[i].prerequisites|
    requires cfgs[i].prerequisites[k] !in s.owned
    ensures PurchaseParadigm(cfgs, s, cfgs[i].id) == s
  {
    PurchaseRule(cfgs, s, i);
  }
}

=== FILE: player_store.dfy ===
/**
 * The prototype's player store (nuxt-vitest-project/game/state/playerStore.ts):
 * money, refactor points and version points, with a guarded debit and two
 * resets.
 */
module PlayerStore {
  datatype Player = Player(money: real, refactorPoints: real, versionPoints: real)

  /** A new player holds nothing. */
  const InitialPlayer: Player := Player(0.0, 0.0, 0.0)

  function AddMoney(p: Player, amount: real): (q: Player)
    ensures q.money == p.money + amount && q.(money := p.money) == p
  {
    p.(money := p.money + amount)
  }

  /** The outcome of a debit: the player afterwards and whether it went through. */
  datatype Debit = Debit(player: Player, ok: bool)

  /**
   * Take `amount` from the money when there is at least that much; otherwise
   * change nothing and report failure.
   */
  function DeductMoney(p: Player, amount: real): (d: Debit)
    ensures d.ok <==> p.money >= amount
    ensures d.ok ==> d.player == p.(money := p.money - amount)
    ensures !d.ok ==> d.player == p
    ensures p.money >= 0.0 ==> d.player.money >= 0.0
  {
    if p.money >= amount then Debit(p.(money := p.money - amount), true)
    else Debit(p, false)
  }

  /** From non-negative money, a debit right after adding the same amount goes through and restores the player. */
  lemma DeductUndoesAdd(p: Player, amount: real)
    requires p.money >= 0.0
    ensures DeductMoney(AddMoney(p, amount), amount) == Debit(p, true)
  {
  }

  /** The test scenarios: 200 less 50 leaves 150, and 100 cannot pay 150. */
  lemma DeductMoneyScenarios()
    ensures DeductMoney(AddMoney(InitialPlayer, 200.0), 50.0) == Debit(Player(150.0, 0.0, 0.0), true)
    ensures DeductMoney(AddMoney(InitialPlayer, 100.0), 150.0) == Debit(Player(100.0, 0.0, 0.0), false)
  {
  }

  function AddRefactorPoints(p: Player, amount: real): (q: Player)
    ensures q.refactorPoints == p.refactorPoints + amount && q.(refactorPoints := p.refactorPoints) == p
  {
    p.(refactorPoints := p.refactorPoints + amount)
  }

  function AddVersionPoints(p: Player, amount: real): (q: Player)
    ensures q.versionPoints == p.versionPoints + amount && q.(versionPoints := p.versionPoints) == p
  {
    p.(versionPoints := p.versionPoints + amount)
  }

  /** The soft reset: money back to zero, both kinds of points kept. */
  function ResetPlayerState(p: Player): (q: Player)
    ensures q.money == 0.0 && q.refactorPoints == p.refactorPoints && q.versionPoints == p.versionPoints
  {
    p.(money := 0.0)
  }

  /** The hard reset: everything back to zero. */
  function HardResetPlayerState(p: Player): (q: Player)
    ensures q == InitialPlayer
  {
    Player(0.0, 0.0, 0.0)
  }

  /**
   * The two resets agree on money and differ only in the points: a soft
   * reset followed by a hard one is a hard one, a soft reset is idempotent,
   * and a soft reset of a player without points is a new player.
   */
  lemma ResetsRelate(p: Player)
    ensures HardResetPlayerState(ResetPlayerState(p)) == HardResetPlayerState(p)
    ensures ResetPlayerState(ResetPlayerState(p)) == ResetPlayerState(p)
    ensures p.refactorPoints == 0.0 && p.versionPoints == 0.0 ==> ResetPlayerState(p) == InitialPlayer
  {
  }
}

=== FILE: prestige.dfy ===
/**
 * The prestige layer of the store (app/store/game.ts:184-190, 268-320):
 * the refactor-point gain, the prestige reset, refactoring, compiling a
 * release, and entering and leaving challenges.
 *
 * The gain reads `log10(currency)`, which is not a function on reals here:
 * every operation that needs it takes the logarithm the numeric library
 * reports as the parameter `lg`.
 */
module Prestige {
  import opened Numeric
  import opened Configs
  import opened GameState
  import opened Production
  import opened GameStore

  /** Orders of magnitude of currency that make one refactor point in the store. */
  const RefactorScale: real := 20.0

  /** Currency a prestige reset restarts from. */
  const RestartCurrency: real := 10.0

  /**
   * floor((lg/scale)^1.5) once lg reaches `scale`, and 0 below it: the
   * result is the largest g with g^2 <= (lg/scale)^3, and at least 1 from
   * the threshold on.
   */
  function LogGain(lg: real, scale: real): (g: nat)
    requires scale > 0.0
    ensures lg < scale ==> g == 0
    ensures lg >= scale ==>
      g >= 1 && ((g * g) as real) <= (lg / scale) * (lg / scale) * (lg / scale) < (((g + 1) * (g + 1)) as real)
  {
    if lg < scale then 0
    else
      var x := lg / scale;
      AtLeastOneCubed(x);
      FloorPow15(x)
  }

  lemma AtLeastOneCubed(x: real)
    requires x >= 1.0
    ensures x * x * x >= 1.0
  {
    assert x * x >= 1.0;
  }

  /** A larger logarithm never yields a smaller gain. */
  lemma LogGainMonotone(a: real, b: real, scale: real)
    requires scale > 0.0 && a <= b
    ensures LogGain(a, scale) <= LogGain(b, scale)
  {
    if a >= scale {
      FloorPow15Monotone(a / scale, b / scale);
    }
  }

  /**
   * For a currency of exactly 10^e the gain is the largest g with
   * 8000*g^2 <= e^3: pure integer arithmetic with no fractional power.
   */
  lemma LogGainIntegerExponent(e: nat)
    requires e >= 20
    ensures var g := LogGain(e as real, RefactorScale);
      8000 * (g * g) <= e * e * e < 8000 * ((g + 1) * (g + 1))
  {
    var g := LogGain(e as real, RefactorScale);
    var x := e as real / 20.0;
    assert x * x * x == (e * e * e) as real / 8000.0;
    assert ((g * g) as real) * 8000.0 <= (e * e * e) as real;
    assert (e * e * e) as real < (((g + 1) * (g + 1)) as real) * 8000.0;
  }

  /** The refactor points a refactor would grant: the store's gain, half again with challenge 2 completed. */
  function RefactorGain(s: State, lg: real): (gain: real)
    ensures gain >= 0.0
    ensures gain > 0.0 <==> lg >= RefactorScale
  {
    LogGain(lg, RefactorScale) as real * Challenge2Bonus(s)
  }

  /**
   * The three gains the store is checked against: 10^19 gives nothing,
   * 10^20 one point and 10^40 two (floor(2^1.5) = floor(2.83)); completing
   * challenge 2 multiplies after the floor.
   */
  lemma RefactorGainExamples(s: State)
    ensures RefactorGain(s, 19.0) == 0.0
    ensures !s.completions.challenge2 ==> RefactorGain(s, 20.0) == 1.0 && RefactorGain(s, 40.0) == 2.0
    ensures s.completions.challenge2 ==> RefactorGain(s, 40.0) == 3.0
  {
    var g1 := LogGain(20.0, RefactorScale);
    SquareBracketUnique(1.0, g1, 1);
    var g2 := LogGain(40.0, RefactorScale);
    assert 2.0 * 2.0 * 2.0 == 8.0;
    SquareBracketUnique(8.0, g2, 2);
  }

  /**
   * A prestige reset: currency restarts at `start`, every generator slot
   * keeps its id but holds and has bought nothing, and the clock restarts at
   * `now`; prestige counters, challenges and automators are kept.
   */
  function ResetForPrestige(s: State, start: real, now: int): (t: State)
    ensures t.currency == start && t.lastUpdateTime == now
    ensures |t.generators| == |s.generators|
    ensures forall i :: 0 <= i < |s.generators| ==>
      t.generators[i].id == s.generators[i].id && t.generators[i].amount == 0.0 && t.generators[i].bought == 0
    ensures t.(currency := s.currency, generators := s.generators, lastUpdateTime := s.lastUpdateTime) == s
  {
    var gens := seq(|s.generators|, i requires 0 <= i < |s.generators| => Generator(s.generators[i].id, 0.0, 0));
    s.(currency := start, generators := gens, lastUpdateTime := now)
  }

  /**
   * After a reset the generators are exactly those of a new game, and a
   * valid state stays valid; resetting twice is resetting once.
   */
  lemma ResetMatchesNewGame(cfgs: seq<GeneratorConfig>, s: State, start: real, now: int, saveVersion: string)
    requires WellFormedTable(cfgs) && Shaped(s)
    ensures var t := ResetForPrestige(s, start, now);
      t.generators == InitialState(cfgs, saveVersion, now).generators &&
      (Valid(s) && start >= 0.0 ==> Valid(t)) &&
      ResetForPrestige(t, start, now) == t
  {
    var t := ResetForPrestige(s, start, now);
    var newGame := InitialState(cfgs, saveVersion, now).generators;
    assert |newGame| == 8;
    forall i | 0 <= i < 8
      ensures t.generators[i] == newGame[i]
    {
      assert s.generators[i].id == i + 1 == cfgs[i].id;
    }
  }

  /**
   * Refactor with `lg` the logarithm of the current currency. Nothing
   * happens without 10 AI Cores bought. Otherwise an active challenge 1 is
   * completed and left, the gain (computed before) is added to the refactor
   * points and counted when positive, and the run restarts from 10
   * currency with empty generators.
   */
  function Refactor(s: State, lg: real, now: int): (t: State)
    ensures !CanRefactor(s) ==> t == s
    ensures CanRefactor(s) ==>
      t == ResetForPrestige(t, RestartCurrency, now) &&
      |t.generators| == |s.generators| &&
      t.refactorPoints == s.refactorPoints + RefactorGain(s, lg) &&
      t.refactorCount == s.refactorCount + (if lg >= RefactorScale then 1 else 0) &&
      t.completions.challenge1 == (s.completions.challenge1 || s.activeChallenge == Challenge1) &&
      t.activeChallenge == (if s.activeChallenge == Challenge1 then NoChallenge else s.activeChallenge)
    ensures t.completions.challenge2 == s.completions.challenge2
    ensures t.version == s.version && t.buyMultiplier == s.buyMultiplier && t.saveVersion == s.saveVersion
    ensures t.purchasedAutomators == s.purchasedAutomators && t.automatorStates == s.automatorStates
    ensures |t.generators| == |s.generators| && forall i :: 0 <= i < |s.generators| ==> t.generators[i].id == s.generators[i].id
  {
    if !CanRefactor(s) then s
    else
      var gain := RefactorGain(s, lg);
      var s1 := if s.activeChallenge == Challenge1
        then s.(completions := s.completions.(challenge1 := true), activeChallenge := NoChallenge)
        else s;
      var s2 := if gain > 0.0
        then s1.(refactorPoints := s1.refactorPoints + gain, refactorCount := s1.refactorCount + 1)
        else s1;
      ResetForPrestige(s2, RestartCurrency, now)
  }

  /** A refactor empties the AI Cores it needs, so a second one straight after changes nothing. */
  lemma RefactorTwiceIsOnce(s: State, lg: real, lg2: real, now: int, now2: int)
    requires Shaped(s)
    ensures var t := Refactor(s, lg, now);
      !CanRefactor(t) && Refactor(t, lg2, now2) == t
  {
    var t := Refactor(s, lg, now);
    if CanRefactor(s) {
      assert t.generators[7].id == 8;
    }
  }

  /** In a valid state a refactor keeps the state valid and never takes refactor points away. */
  lemma RefactorKeepsValid(s: State, lg: real, now: int)
    requires Valid(s)
    ensures var t := Refactor(s, lg, now);
      Valid(t) && t.refactorPoints >= s.refactorPoints && t.refactorCount >= s.refactorCount
  {
  }

  /**
   * Compile & release, as the store has it: nothing happens before 5
   * refactors; otherwise the version goes up and a refactor follows, with
   * the automator flags put back afterwards.
   */
  function CompileAndRelease(s: State, lg: real, now: int): (t: State)
    ensures !IsCompileUnlocked(s) ==> t == s
    ensures IsCompileUnlocked(s) ==> t == Refactor(s.(version := s.version + 1), lg, now)
    ensures t.purchasedAutomators == s.purchasedAutomators && t.automatorStates == s.automatorStates
  {
    if !IsCompileUnlocked(s) then s
    else
      var s1 := s.(version := s.version + 1);
      var s2 := Refactor(s1, lg, now);
      s2.(purchasedAutomators := s.purchasedAutomators, automatorStates := s.automatorStates)
  }

  /**
   * Compiling without 10 AI Cores: the refactor inside does nothing, yet
   * the version still goes up, and again on every further compile -- the
   * progress stays and no reset happens.
   */
  lemma CompileWithoutRefactorStillBumpsVersion(s: State, lg: real, now: int)
    requires IsCompileUnlocked(s) && !CanRefactor(s)
    ensures var t := CompileAndRelease(s, lg, now);
      t == s.(version := s.version + 1) &&
      CompileAndRelease(t, lg, now).version == s.version + 2 &&
      CompileAndRelease(t, lg, now).currency == s.currency
  {
    var t := CompileAndRelease(s, lg, now);
    assert BoughtOf(t.generators, 8) == BoughtOf(s.generators, 8);
  }

  /** A concrete state that compiles twice for free: 5 refactors done, no AI Core bought, 1000 currency. */
  lemma FreeVersionsExample(cfgs: seq<GeneratorConfig>, now: int)
    requires WellFormedTable(cfgs)
    ensures var s := InitialState(cfgs, "1.0.2", now).(refactorCount := 5, currency := 1000.0);
      var t := CompileAndRelease(CompileAndRelease(s, 0.0, now), 0.0, now);
      t.version == 2 && t.currency == 1000.0
  {
    var s := InitialState(cfgs, "1.0.2", now).(refactorCount := 5, currency := 1000.0);
    BoughtOfShaped(s, 8);
    CompileWithoutRefactorStillBumpsVersion(s, 0.0, now);
  }

  /**
   * Compile & release gated as intended: a release needs both 5 refactors
   * and the refactor it triggers, so every version bump comes with a reset.
   */
  function GatedCompileAndRelease(s: State, lg: real, now: int): (t: State)
    ensures !(IsCompileUnlocked(s) && CanRefactor(s)) ==> t == s
    ensures t.version == s.version || t.version == s.version + 1
    ensures t.version == s.version + 1 ==> CanRefactor(s) && t == ResetForPrestige(t, RestartCurrency, now)
    ensures t.purchasedAutomators == s.purchasedAutomators && t.automatorStates == s.automatorStates
  {
    if !(IsCompileUnlocked(s) && CanRefactor(s)) then s
    else CompileAndRelease(s, lg, now)
  }

  /** Under the gate a second release straight after the first changes nothing. */
  lemma GatedCompileTwiceIsOnce(s: State, lg: real, lg2: real, now: int, now2: int)
    requires Shaped(s)
    ensures var t := GatedCompileAndRelease(s, lg, now);
      GatedCompileAndRelease(t, lg2, now2) == t
  {
    var t := GatedCompileAndRelease(s, lg, now);
    if IsCompileUnlocked(s) && CanRefactor(s) {
      RefactorTwiceIsOnce(s.(version := s.version + 1), lg, lg2, now, now2);
    }
  }

  /** Whether challenge `c` is recorded as completed. */
  predicate Completed(s: State, c: Challenge)
  {
    match c
    case NoChallenge => false
    case Challenge1 => s.completions.challenge1
    case Challenge2 => s.completions.challenge2
  }

  /**
   * Enter challenge `c` (1 or 2): a completed challenge cannot be started
   * again; otherwise it becomes the active one and the run is reset.
   */
  function StartChallenge(s: State, c: Challenge, now: int): (t: State)
    requires c != NoChallenge
    ensures Completed(s, c) ==> t == s
    ensures !Completed(s, c) ==>
      t.activeChallenge == c && t == ResetForPrestige(t, RestartCurrency, now) &&
      t.(activeChallenge := s.activeChallenge, currency := s.currency, generators := s.generators,
         lastUpdateTime := s.lastUpdateTime) == s
    ensures |t.generators| == |s.generators| && forall i :: 0 <= i < |s.generators| ==> t.generators[i].id == s.generators[i].id
  {
    if Completed(s, c) then s
    else ResetForPrestige(s.(activeChallenge := c), RestartCurrency, now)
  }

  /** Leave the running challenge, resetting the run; with none running nothing happens. */
  function ExitChallenge(s: State, now: int): (t: State)
    ensures s.activeChallenge == NoChallenge ==> t == s
    ensures s.activeChallenge != NoChallenge ==>
      t.activeChallenge == NoChallenge && t == ResetForPrestige(t, RestartCurrency, now) &&
      t.(activeChallenge := s.activeChallenge, currency := s.currency, generators := s.generators,
         lastUpdateTime := s.lastUpdateTime) == s
    ensures |t.generators| == |s.generators| && forall i :: 0 <= i < |s.generators| ==> t.generators[i].id == s.generators[i].id
  {
    if s.activeChallenge == NoChallenge then s
    else ResetForPrestige(s.(activeChallenge := NoChallenge), RestartCurrency, now)
  }

  /** The challenge being played is never one already completed. */
  predicate ActiveNotCompleted(s: State)
  {
    !Completed(s, s.activeChallenge)
  }

  /** Every prestige and challenge action keeps the running challenge uncompleted. */
  lemma ChallengeActionsKeepActiveNotCompleted(s: State, c: Challenge, lg: real, now: int)
    requires ActiveNotCompleted(s) && c != NoChallenge
    ensures ActiveNotCompleted(StartChallenge(s, c, now))
    ensures ActiveNotCompleted(ExitChallenge(s, now))
    ensures ActiveNotCompleted(Refactor(s, lg, now))
    ensures ActiveNotCompleted(CompileAndRelease(s, lg, now))
  {
  }

  /** Only a refactor during challenge 1 completes anything: no action ever completes challenge 2. */
  lemma Challenge2NeverCompleted(s: State, c: Challenge, lg: real, now: int)
    requires c != NoChallenge
    ensures StartChallenge(s, c, now).completions == s.completions
    ensures ExitChallenge(s, now).completions == s.completions
    ensures CompileAndRelease(s, lg, now).completions.challenge2 == s.completions.challenge2
    ensures Refactor(s, lg, now).completions.challenge1 ==> s.completions.challenge1 || s.activeChallenge == Challenge1
  {
  }
}

=== FILE: production.dfy ===
/**
 * Per-second output of each generator (app/store/game.ts:142-177; the
 * client copy at client/app/store/game.ts:135-170 is identical).
 */
module Production {
  import opened Numeric
  import opened Configs
  import opened GameState

  /** Growth of the buy-ten bonus per ten units bought: 2.2 once challenge 1 is completed, 2 before. */
  function BonusPer10(s: State): real
  {
    if s.completions.challenge1 then 2.2 else 2.0
  }

  /** The buy-ten bonus of generator `id`: BonusPer10 raised to floor(bought / 10). */
  function Buy10Bonus(s: State, id: int): real
    requires Shaped(s) && 1 <= id <= 8
  {
    Pow(BonusPer10(s), s.generators[id - 1].bought / 10)
  }

  /** Refactor points boost every generator: 1 + RP*0.1*(1 + version*0.2). */
  function RpBonus(s: State): real
  {
    1.0 + s.refactorPoints * 0.1 * (1.0 + (s.version as real) * 0.2)
  }

  /** Completing challenge 2 raises later refactor gains by half. */
  function Challenge2Bonus(s: State): real
  {
    if s.completions.challenge2 then 1.5 else 1.0
  }

  /**
   * Output per second of generator `id`: nothing for the four lowest tiers
   * while challenge 1 runs, otherwise baseProduction*amount*Buy10Bonus*RpBonus.
   */
  function GeneratorProduction(cfgs: seq<GeneratorConfig>, s: State, id: int): real
    requires WellFormedTable(cfgs) && Shaped(s) && 1 <= id <= 8
  {
    if s.activeChallenge == Challenge1 && id <= 4 then 0.0
    else cfgs[id - 1].baseProduction * s.generators[id - 1].amount * Buy10Bonus(s, id) * RpBonus(s)
  }

  /** The buy-ten bonus multiplies by BonusPer10 for every further ten units bought, and never drops below 1. */
  lemma Buy10BonusSteps(s: State, id: int)
    requires Shaped(s) && 1 <= id <= 8
    ensures Buy10Bonus(s, id) >= 1.0
    ensures var g := s.generators[id - 1];
      Buy10Bonus(s.(generators := s.generators[id - 1 := g.(bought := g.bought + 10)]), id)
        == BonusPer10(s) * Buy10Bonus(s, id)
    ensures s.generators[id - 1].bought < 10 ==> Buy10Bonus(s, id) == 1.0
  {
    PowAtLeastOne(BonusPer10(s), s.generators[id - 1].bought / 10);
    var g := s.generators[id - 1];
    assert (g.bought + 10) / 10 == g.bought / 10 + 1;
  }

  /** The three values the refactor-bonus formula is checked against: 0 RP gives 1, 100 RP gives 11, and 15 at version 2. */
  lemma RpBonusExamples(s: State)
    ensures s.refactorPoints == 0.0 ==> RpBonus(s) == 1.0
    ensures s.refactorPoints == 100.0 && s.version == 0 ==> RpBonus(s) == 11.0
    ensures s.refactorPoints == 100.0 && s.version == 2 ==> RpBonus(s) == 15.0
  {
  }

  /** Refactor points and versions only ever raise the bonus above 1. */
  lemma RpBonusAtLeastOne(s: State)
    requires s.refactorPoints >= 0.0
    ensures RpBonus(s) >= 1.0
  {
    assert s.refactorPoints * 0.1 * (1.0 + (s.version as real) * 0.2) >= 0.0;
  }

  /** In a valid state nothing produces a negative amount. */
  lemma ProductionNonNegative(cfgs: seq<GeneratorConfig>, s: State, id: int)
    requires WellFormedTable(cfgs) && Valid(s) && 1 <= id <= 8
    ensures GeneratorProduction(cfgs, s, id) >= 0.0
  {
    Buy10BonusSteps(s, id);
    RpBonusAtLeastOne(s);
    NonNegativeProduct4(cfgs[id - 1].baseProduction, s.generators[id - 1].amount, Buy10Bonus(s, id), RpBonus(s));
  }

  lemma NonNegativeProduct4(a: real, b: real, c: real, d: real)
    requires a >= 0.0 && b >= 0.0 && c >= 0.0 && d >= 0.0
    ensures a * b * c * d >= 0.0
  {
    assert a * b >= 0.0;
    assert a * b * c >= 0.0;
  }

  /**
   * Output grows with the amount held: with everything else equal, a
   * generator holding more units produces at least as much.
   */
  lemma ProductionMonotoneInAmount(cfgs: seq<GeneratorConfig>, s: State, id: int, more: real)
    requires WellFormedTable(cfgs) && Valid(s) && 1 <= id <= 8
    requires more >= s.generators[id - 1].amount
    ensures var g := s.generators[id - 1];
      GeneratorProduction(cfgs, s, id) <= GeneratorProduction(cfgs, s.(generators := s.generators[id - 1 := g.(amount := more)]), id)
  {
    var g := s.generators[id - 1];
    var s2 := s.(generators := s.generators[id - 1 := g.(amount := more)]);
    assert Buy10Bonus(s2, id) == Buy10Bonus(s, id);
    Buy10BonusSteps(s, id);
    RpBonusAtLeastOne(s);
    ScaleMonotone(cfgs[id - 1].baseProduction, g.amount, more, Buy10Bonus(s, id) * RpBonus(s));
  }

  lemma ScaleMonotone(a: real, x: real, y: real, m: real)
    requires a >= 0.0 && m >= 0.0 && x <= y
    ensures a * x * m <= a * y * m
  {
    assert a * x <= a * y;
  }

  /** Completing challenge 1 never lowers any generator's output. */
  lemma Challenge1CompletionHelps(cfgs: seq<GeneratorConfig>, s: State, id: int)
    requires WellFormedTable(cfgs) && Valid(s) && 1 <= id <= 8
    ensures GeneratorProduction(cfgs, s, id) <=
      GeneratorProduction(cfgs, s.(completions := s.completions.(challenge1 := true)), id)
  {
    var s2 := s.(completions := s.completions.(challenge1 := true));
    var e := s.generators[id - 1].bought / 10;
    PowBaseMonotone(BonusPer10(s), BonusPer10(s2), e);
    PowAtLeastOne(BonusPer10(s), e);
    RpBonusAtLeastOne(s);
    if !(s.activeChallenge == Challenge1 && id <= 4) {
      ScaleMonotone(cfgs[id - 1].baseProduction * s.generators[id - 1].amount, Buy10Bonus(s, id), Buy10Bonus(s2, id), RpBonus(s));
    }
  }

  /** A larger base (at least 1) gives a larger power. */
  lemma {:induction false} PowBaseMonotone(a: real, b: real, n: nat)
    requires 1.0 <= a <= b
    ensures Pow(a, n) <= Pow(b, n)
  {
    if n > 0 {
      PowBaseMonotone(a, b, n - 1);
      PowAtLeastOne(a, n - 1);
      assert a * Pow(a, n - 1) <= b * Pow(a, n - 1);
      assert b * Pow(a, n - 1) <= b * Pow(b, n - 1);
    }
  }

  /** While challenge 1 runs the four lowest tiers produce nothing, whatever they hold. */
  lemma Challenge1SilencesLowTiers(cfgs: seq<GeneratorConfig>, s: State, id: int)
    requires WellFormedTable(cfgs) && Shaped(s) && 1 <= id <= 4
    requires s.activeChallenge == Challenge1
    ensures GeneratorProduction(cfgs, s, id) == 0.0
  {
  }
}

=== FILE: purchase.dfy ===
/**
 * Purchase economics shared by the store and its earlier client copy
 * (app/store/game.ts:101-140, 236-247; client/app/store/game.ts:94-127,
 * 212-223): the price of n more units, how many units a purchase asks
 * for, and the all-or-nothing purchase itself.
 */
module Purchase {
  import opened Numeric
  import opened Configs
  import opened GameState

  /** Price of the next single unit after `k` have been bought: B*r^k. */
  function UnitCost(c: GeneratorConfig, k: nat): real
  {
    c.baseCost * Pow(c.costMultiplier, k)
  }

  /**
   * Price of `n` more units after `k`: 0 for no units, otherwise the closed
   * form B*r^k*(r^n - 1)/(r - 1) -- which is what buying them one at a time costs.
   */
  function CostForAmount(c: GeneratorConfig, k: nat, n: nat): (cost: real)
    requires WellFormedConfig(c)
    ensures cost == GeometricSum(c.baseCost, c.costMultiplier, k, n)
  {
    GeometricSumClosedForm(c.baseCost, c.costMultiplier, k, n);
    if n == 0 then 0.0
    else SeriesClosedForm(c.baseCost, Pow(c.costMultiplier, k), c.costMultiplier, Pow(c.costMultiplier, n))
  }

  /** The argument of the logarithm in max mode: C*(r - 1)/(B*r^k) + 1, with p standing for r^k. */
  function LogArgument(currency: real, r: real, b: real, p: real): real
    requires b > 0.0 && p > 0.0
  {
    currency * (r - 1.0) / (b * p) + 1.0
  }

  /**
   * Units the next purchase asks for. The fixed modes ask for 1, 10 or 100;
   * max mode asks for nothing when one unit is out of reach and otherwise
   * for floor(log_r(C*(r - 1)/(B*r^k) + 1)).
   */
  function BuyAmount(m: BuyMultiplier, c: GeneratorConfig, k: nat, currency: real): nat
    requires WellFormedConfig(c)
  {
    match m
    case X1 => 1
    case X10 => 10
    case X100 => 100
    case Max =>
      if currency < UnitCost(c, k) then 0
      else
        PowPositive(c.costMultiplier, k);
        LogArgumentAtLeastRatio(currency, c.costMultiplier, c.baseCost, Pow(c.costMultiplier, k));
        FloorLog(c.costMultiplier, LogArgument(currency, c.costMultiplier, c.baseCost, Pow(c.costMultiplier, k)))
  }

  lemma LogArgumentAtLeastRatio(currency: real, r: real, b: real, p: real)
    requires b > 0.0 && p > 0.0 && r > 1.0
    requires currency >= b * p
    ensures LogArgument(currency, r, b, p) >= r
  {
    PositiveProduct(b, p);
    MulMonotone(r - 1.0, b * p, currency);
    DivMonotone((r - 1.0) * (b * p), currency * (r - 1.0), b * p);
    DivideBack((r - 1.0) * (b * p), b * p, r - 1.0);
  }

  lemma MulMonotone(a: real, x: real, y: real)
    requires a >= 0.0 && x <= y
    ensures a * x <= y * a
  {
  }

  lemma DivMonotone(x: real, y: real, d: real)
    requires d > 0.0 && x <= y
    ensures x / d <= y / d
  {
  }

  /** The fixed modes ask for exactly 1, 10 and 100 units whatever the price. */
  lemma FixedBuyAmounts(c: GeneratorConfig, k: nat, currency: real)
    requires WellFormedConfig(c)
    ensures BuyAmount(X1, c, k, currency) == 1
    ensures BuyAmount(X10, c, k, currency) == 10
    ensures BuyAmount(X100, c, k, currency) == 100
  {
  }

  /** n units are affordable exactly when r^n stays within the logarithm's argument. */
  lemma AffordableIffPowBound(c: GeneratorConfig, k: nat, n: nat, currency: real)
    requires WellFormedConfig(c)
    ensures Pow(c.costMultiplier, k) > 0.0 &&
      (CostForAmount(c, k, n) <= currency <==>
       Pow(c.costMultiplier, n) <= LogArgument(currency, c.costMultiplier, c.baseCost, Pow(c.costMultiplier, k)))
  {
    PowPositive(c.costMultiplier, k);
    GeometricSumClosedForm(c.baseCost, c.costMultiplier, k, n);
    ClosedFormWithinBudget(c.baseCost, Pow(c.costMultiplier, k), c.costMultiplier, Pow(c.costMultiplier, n), currency);
  }

  lemma ClosedFormWithinBudget(b: real, p: real, r: real, q: real, currency: real)
    requires b > 0.0 && p > 0.0 && r > 1.0
    ensures SeriesClosedForm(b, p, r, q) <= currency <==> q <= LogArgument(currency, r, b, p)
  {
    PositiveProduct(b, p);
    DivLeIff(b * p * (q - 1.0), r - 1.0, currency);
    MulLeIff(q - 1.0, b * p, currency * (r - 1.0));
  }

  /** x/d <= y exactly when x <= y*d, for positive d. */
  lemma DivLeIff(x: real, d: real, y: real)
    requires d > 0.0
    ensures x / d <= y <==> x <= y * d
  {
    assert x / d * d == x;
    if x / d <= y {
      assert x / d * d <= y * d;
    } else {
      assert x / d * d > y * d;
    }
  }

  /** a*x <= y exactly when a <= y/x, for positive x. */
  lemma MulLeIff(a: real, x: real, y: real)
    requires x > 0.0
    ensures x * a <= y <==> a <= y / x
  {
    assert y / x * x == y;
    if a <= y / x {
      assert x * a <= x * (y / x);
    } else {
      assert x * a > x * (y / x);
    }
  }

  /** Buying at least one unit costs at least the first unit. */
  lemma {:induction false} CostAtLeastUnit(c: GeneratorConfig, k: nat, n: nat)
    requires WellFormedConfig(c) && n >= 1
    ensures GeometricSum(c.baseCost, c.costMultiplier, k, n) >= UnitCost(c, k)
  {
    if n > 1 {
      CostAtLeastUnit(c, k, n - 1);
      PowPositive(c.costMultiplier, k + n - 1);
      PositiveProduct(c.baseCost, Pow(c.costMultiplier, k + n - 1));
    }
  }

  lemma PositiveProduct(x: real, y: real)
    requires x > 0.0 && y > 0.0
    ensures x * y > 0.0
  {
  }

  /**
   * Max mode asks for the largest affordable number of units: n units cost
   * at most the currency exactly when n is at most the amount asked for.
   */
  lemma BuyAmountIsLargestAffordable(c: GeneratorConfig, k: nat, currency: real, n: nat)
    requires WellFormedConfig(c) && currency >= 0.0
    ensures CostForAmount(c, k, n) <= currency <==> n <= BuyAmount(Max, c, k, currency)
  {
    if currency < UnitCost(c, k) {
      if n >= 1 {
        CostAtLeastUnit(c, k, n);
      }
    } else {
      PowPositive(c.costMultiplier, k);
      LogArgumentAtLeastRatio(currency, c.costMultiplier, c.baseCost, Pow(c.costMultiplier, k));
      AffordableIffPowBound(c, k, n, currency);
      FloorLogIsLargest(c.costMultiplier, LogArgument(currency, c.costMultiplier, c.baseCost, Pow(c.costMultiplier, k)), n);
    }
  }

  /** Max mode asks for at least one unit exactly when one unit is affordable. */
  lemma MaxBuysSomethingIffUnitAffordable(c: GeneratorConfig, k: nat, currency: real)
    requires WellFormedConfig(c) && currency >= 0.0
    ensures BuyAmount(Max, c, k, currency) > 0 <==> UnitCost(c, k) <= currency
  {
    BuyAmountIsLargestAffordable(c, k, currency, 1);
    assert GeometricSum(c.baseCost, c.costMultiplier, k, 1) == UnitCost(c, k);
  }

  /**
   * Buy the units the current multiplier asks for of generator `id`, all or
   * nothing: nothing happens when the amount is 0 or the price exceeds the
   * currency; otherwise the price is debited and the units are added to both
   * the held and the bought count of that one generator.
   */
  function BuyGenerator(cfgs: seq<GeneratorConfig>, s: State, id: int): (t: State)
    requires WellFormedTable(cfgs) && Shaped(s) && 1 <= id <= 8
    ensures Shaped(t)
    ensures t.currency <= s.currency
    ensures t.buyMultiplier == s.buyMultiplier && t.version == s.version
    ensures t.refactorPoints == s.refactorPoints && t.refactorCount == s.refactorCount
    ensures t.completions == s.completions && t.activeChallenge == s.activeChallenge
    ensures t.purchasedAutomators == s.purchasedAutomators && t.automatorStates == s.automatorStates
    ensures t.lastUpdateTime == s.lastUpdateTime && t.saveVersion == s.saveVersion
    ensures forall i :: 0 <= i < 8 && i != id - 1 ==> t.generators[i] == s.generators[i]
    ensures t.generators[id - 1].amount >= s.generators[id - 1].amount
    ensures t.generators[id - 1].bought >= s.generators[id - 1].bought
    ensures Valid(s) ==> Valid(t)
  {
    var g := s.generators[id - 1];
    var c := cfgs[id - 1];
    var n := BuyAmount(s.buyMultiplier, c, g.bought, s.currency);
    if n == 0 then s
    else
      var cost := CostForAmount(c, g.bought, n);
      if s.currency >= cost then
        PowPositive(c.costMultiplier, g.bought);
        CostNonNegative(c, g.bought, n);
        s.(currency := s.currency - cost,
           generators := s.generators[id - 1 := Generator(g.id, g.amount + n as real, g.bought + n)])
      else s
  }

  lemma {:induction false} CostNonNegative(c: GeneratorConfig, k: nat, n: nat)
    requires WellFormedConfig(c)
    ensures GeometricSum(c.baseCost, c.costMultiplier, k, n) >= 0.0
  {
    if n >= 1 {
      CostAtLeastUnit(c, k, n);
      PowPositive(c.costMultiplier, k);
      PositiveProduct(c.baseCost, Pow(c.costMultiplier, k));
    }
  }

  /**
   * The exact effect of a purchase: it goes through exactly when a positive
   * amount is asked for and affordable, and then debits exactly its price
   * and adds exactly that amount to the one generator.
   */
  lemma BuyGeneratorEffect(cfgs: seq<GeneratorConfig>, s: State, id: int)
    requires WellFormedTable(cfgs) && Shaped(s) && 1 <= id <= 8
    ensures var k := s.generators[id - 1].bought;
      var n := BuyAmount(s.buyMultiplier, cfgs[id - 1], k, s.currency);
      var t := BuyGenerator(cfgs, s, id);
      if n > 0 && CostForAmount(cfgs[id - 1], k, n) <= s.currency then
        t.currency == s.currency - CostForAmount(cfgs[id - 1], k, n) &&
        t.generators[id - 1].amount == s.generators[id - 1].amount + n as real &&
        t.generators[id - 1].bought == k + n
      else t == s
  {
  }

  /**
   * A max-mode purchase is never refused for its price: it buys exactly
   * `BuyAmount(Max, ..)` units, which are affordable by construction, and
   * pays exactly their price; with not even one unit affordable (a negative
   * currency included) that is no unit and no charge.
   */
  lemma MaxBuyTakesLargestAffordable(cfgs: seq<GeneratorConfig>, s: State, id: int)
    requires WellFormedTable(cfgs) && Shaped(s) && 1 <= id <= 8 && s.buyMultiplier == Max
    ensures var g := s.generators[id - 1];
      var n := BuyAmount(Max, cfgs[id - 1], g.bought, s.currency);
      var t := BuyGenerator(cfgs, s, id);
      t.generators[id - 1] == g.(amount := g.amount + n as real, bought := g.bought + n) &&
      t.currency == s.currency - CostForAmount(cfgs[id - 1], g.bought, n)
  {
    var c := cfgs[id - 1];
    var g := s.generators[id - 1];
    var n := BuyAmount(Max, c, g.bought, s.currency);
    if s.currency >= 0.0 {
      BuyAmountIsLargestAffordable(c, g.bought, s.currency, n);
    } else {
      PowPositive(c.costMultiplier, g.bought);
      PositiveProduct(c.baseCost, Pow(c.costMultiplier, g.bought));
    }
    if n == 0 {
      assert CostForAmount(c, g.bought, n) == 0.0;
    }
  }

  /**
   * A max-mode purchase with at least one unit affordable always goes
   * through, and afterwards not even one more unit is affordable.
   */
  lemma MaxBuyExhaustsBudget(cfgs: seq<GeneratorConfig>, s: State, id: int)
    requires WellFormedTable(cfgs) && Valid(s) && 1 <= id <= 8
    requires s.buyMultiplier == Max
    requires UnitCost(cfgs[id - 1], s.generators[id - 1].bought) <= s.currency
    ensures var t := BuyGenerator(cfgs, s, id);
      t.generators[id - 1].bought > s.generators[id - 1].bought &&
      t.currency < UnitCost(cfgs[id - 1], t.generators[id - 1].bought)
  {
    var c := cfgs[id - 1];
    var k := s.generators[id - 1].bought;
    var n := BuyAmount(Max, c, k, s.currency);
    MaxBuysSomethingIffUnitAffordable(c, k, s.currency);
    BuyAmountIsLargestAffordable(c, k, s.currency, n);
    BuyAmountIsLargestAffordable(c, k, s.currency, n + 1);
    assert GeometricSum(c.baseCost, c.costMultiplier, k, n + 1)
        == GeometricSum(c.baseCost, c.costMultiplier, k, n) + UnitCost(c, k + n);
  }
}

=== FILE: tick.dfy ===
/**
 * One tick of the store (app/store/game.ts:196-230): production over the
 * elapsed time from a snapshot of all eight outputs, then the automators
 * from tier 8 down to tier 1, each buying as much as it can.
 */
module Tick {
  import opened Wrappers
  import opened Configs
  import opened GameState
  import opened Production
  import opened Purchase
  import opened GameStore

  /** What a rate per second yields over `seconds` seconds. */
  function Yield(rate: real, seconds: real): real
  {
    rate * seconds
  }

  /** The outputs of all eight tiers, all read before anything is updated. */
  function Productions(cfgs: seq<GeneratorConfig>, s: State): (p: seq<real>)
    requires WellFormedTable(cfgs) && Shaped(s)
    ensures |p| == 8 && forall i :: 0 <= i < 8 ==> p[i] == GeneratorProduction(cfgs, s, i + 1)
  {
    seq(8, i requires 0 <= i < 8 => GeneratorProduction(cfgs, s, i + 1))
  }

  /** The cascade loop: for i from `i` down to 2, tier i's output over `diff` seconds is added to tier i - 1. */
  function CascadeFrom(gens: seq<Generator>, prods: seq<real>, diff: real, i: nat): (r: seq<Generator>)
    requires |gens| == 8 && |prods| == 8 && 1 <= i <= 8
    ensures |r| == 8
    decreases i
  {
    if i == 1 then gens
    else
      var g := gens[i - 2];
      CascadeFrom(gens[i - 2 := g.(amount := g.amount + Yield(prods[i - 1], diff))], prods, diff, i - 1)
  }

  /**
   * Running the loop from tier `i` down adds to every slot j below i - 1
   * exactly the output of the slot above it, and touches nothing else.
   */
  lemma {:induction false} CascadeFeedsTierBelow(gens: seq<Generator>, prods: seq<real>, diff: real, i: nat)
    requires |gens| == 8 && |prods| == 8 && 1 <= i <= 8
    decreases i
    ensures forall j :: 0 <= j < 8 ==>
      CascadeFrom(gens, prods, diff, i)[j] ==
        if j < i - 1 then gens[j].(amount := gens[j].amount + Yield(prods[j + 1], diff)) else gens[j]
  {
    if i > 1 {
      var g := gens[i - 2];
      var fed := gens[i - 2 := g.(amount := g.amount + Yield(prods[i - 1], diff))];
      CascadeFeedsTierBelow(fed, prods, diff, i - 1);
      assert CascadeFrom(gens, prods, diff, i) == CascadeFrom(fed, prods, diff, i - 1);
      forall j | 0 <= j < 8
        ensures CascadeFrom(gens, prods, diff, i)[j] ==
          if j < i - 1 then gens[j].(amount := gens[j].amount + Yield(prods[j + 1], diff)) else gens[j]
      {
        if j != i - 2 {
          assert fed[j] == gens[j];
        }
      }
    }
  }

  /** Production over `diff` seconds: the cascade into tiers 1 to 7, and tier 1's output into currency. */
  function ProductionPhase(cfgs: seq<GeneratorConfig>, s: State, diff: real): (t: State)
    requires WellFormedTable(cfgs) && Shaped(s)
    ensures Shaped(t)
    ensures forall j :: 0 <= j < 8 ==> t.generators[j].bought == s.generators[j].bought
    ensures t.(currency := s.currency, generators := s.generators) == s
  {
    var prods := Productions(cfgs, s);
    CascadeFeedsTierBelow(s.generators, prods, diff, 8);
    s.(generators := CascadeFrom(s.generators, prods, diff, 8), currency := s.currency + Yield(prods[0], diff))
  }

  /**
   * Every gain of a production phase comes from the outputs before it: tier
   * j + 1 feeds tier j and tier 1 feeds currency for `diff` seconds; tier 8
   * is never fed.
   */
  lemma ProductionPhaseUsesSnapshot(cfgs: seq<GeneratorConfig>, s: State, diff: real)
    requires WellFormedTable(cfgs) && Shaped(s)
    ensures var t := ProductionPhase(cfgs, s, diff);
      t.currency == s.currency + Yield(GeneratorProduction(cfgs, s, 1), diff) &&
      (forall j :: 0 <= j < 7 ==>
        t.generators[j].amount == s.generators[j].amount + Yield(GeneratorProduction(cfgs, s, j + 2), diff)) &&
      t.generators[7] == s.generators[7]
  {
    CascadeFeedsTierBelow(s.generators, Productions(cfgs, s), diff, 8);
  }

  /** With time moving forward production never lowers anything in a valid state. */
  lemma ProductionPhaseKeepsValid(cfgs: seq<GeneratorConfig>, s: State, diff: real)
    requires WellFormedTable(cfgs) && Shaped(s) && diff >= 0.0
    ensures var t := ProductionPhase(cfgs, s, diff);
      Valid(s) ==>
        Valid(t) && t.currency >= s.currency &&
        forall j :: 0 <= j < 8 ==> t.generators[j].amount >= s.generators[j].amount
  {
    if Valid(s) {
      ProductionPhaseUsesSnapshot(cfgs, s, diff);
      forall id | 1 <= id <= 8
        ensures Yield(GeneratorProduction(cfgs, s, id), diff) >= 0.0
      {
        ProductionNonNegative(cfgs, s, id);
        assert GeneratorProduction(cfgs, s, id) * diff >= 0.0;
      }
    }
  }

  /** One automator firing: switch to max, buy, switch back to the multiplier the player chose. */
  function AutoBuy(cfgs: seq<GeneratorConfig>, s: State, id: int): (t: State)
    requires WellFormedTable(cfgs) && Shaped(s) && 1 <= id <= 8
  {
    SetBuyMultiplier(BuyGenerator(cfgs, SetBuyMultiplier(s, Max), id), s.buyMultiplier)
  }

  /** Whether automator `id` is both bought and switched on. */
  predicate AutomatorActive(s: State, id: int)
  {
    Flag(s.purchasedAutomators, id) && Flag(s.automatorStates, id)
  }

  /**
   * The automator loop from tier `i` down to tier 1: each bought and
   * switched-on automator buys as much of its tier as it can.
   */
  function RunAutomators(cfgs: seq<GeneratorConfig>, s: State, i: nat): (t: State)
    requires WellFormedTable(cfgs) && Shaped(s) && i <= 8
    ensures Shaped(t)
    ensures t.buyMultiplier == s.buyMultiplier
    ensures t.currency <= s.currency
    ensures t.(currency := s.currency, generators := s.generators) == s
    ensures forall j :: 0 <= j < 8 ==>
      t.generators[j].amount >= s.generators[j].amount && t.generators[j].bought >= s.generators[j].bought
    ensures forall j :: 0 <= j < 8 && (j >= i || !AutomatorActive(s, j + 1)) ==> t.generators[j] == s.generators[j]
    ensures Valid(s) ==> Valid(t)
    decreases i
  {
    if i == 0 then s
    else
      var s1 := if AutomatorActive(s, i) then AutoBuy(cfgs, s, i) else s;
      RunAutomators(cfgs, s1, i - 1)
  }

  /**
   * The loop runs from the top tier down, so the highest active automator
   * buys first: its tier ends the loop exactly as that one max-mode
   * purchase left it, the automators below touching only lower tiers.
   */
  lemma TopActiveAutomatorBuysFirst(cfgs: seq<GeneratorConfig>, s: State, i: nat)
    requires WellFormedTable(cfgs) && Shaped(s) && 1 <= i <= 8 && AutomatorActive(s, i)
    ensures RunAutomators(cfgs, s, i).generators[i - 1] == AutoBuy(cfgs, s, i).generators[i - 1]
    ensures RunAutomators(cfgs, s, i).currency <= AutoBuy(cfgs, s, i).currency
  {
  }

  /**
   * What the highest active automator buys: in max mode with the currency
   * the loop starts from, `BuyAmount(Max, ..)` units -- the largest
   * affordable number (`Purchase.BuyAmountIsLargestAffordable`), none when
   * not even one is affordable -- and that many units' price leaves the
   * currency.
   */
  lemma AutomatorBuysMax(cfgs: seq<GeneratorConfig>, s: State, i: nat)
    requires WellFormedTable(cfgs) && Shaped(s) && 1 <= i <= 8 && AutomatorActive(s, i)
    ensures var g := s.generators[i - 1];
      var n := BuyAmount(Max, cfgs[i - 1], g.bought, s.currency);
      var t := RunAutomators(cfgs, s, i);
      t.generators[i - 1] == g.(amount := g.amount + n as real, bought := g.bought + n) &&
      t.currency <= s.currency - CostForAmount(cfgs[i - 1], g.bought, n)
  {
    MaxBuyTakesLargestAffordable(cfgs, SetBuyMultiplier(s, Max), i);
    TopActiveAutomatorBuysFirst(cfgs, s, i);
  }

  /** Elapsed seconds between the last update and `now` (milliseconds). */
  function Elapsed(s: State, now: int): real
  {
    (now - s.lastUpdateTime) as real / 1000.0
  }

  /** A forward tick of `diff` seconds: production, then the automators once automation is unlocked. */
  function Advance(cfgs: seq<GeneratorConfig>, s: State, diff: real): (t: State)
    requires WellFormedTable(cfgs) && Shaped(s) && diff >= 0.0
    ensures Shaped(t)
    ensures t.buyMultiplier == s.buyMultiplier
    ensures t.(currency := s.currency, generators := s.generators) == s
    ensures Valid(s) ==> Valid(t)
  {
    var s1 := ProductionPhase(cfgs, s, diff);
    ProductionPhaseKeepsValid(cfgs, s, diff);
    if IsAutomationUnlocked(s1) then RunAutomators(cfgs, s1, 8) else s1
  }

  /** A forward tick in a valid state never takes away units held or bought. */
  lemma AdvanceNeverLosesUnits(cfgs: seq<GeneratorConfig>, s: State, diff: real)
    requires WellFormedTable(cfgs) && Shaped(s) && diff >= 0.0
    ensures var t := Advance(cfgs, s, diff);
      Valid(s) ==> forall j :: 0 <= j < 8 ==>
        t.generators[j].amount >= s.generators[j].amount && t.generators[j].bought >= s.generators[j].bought
  {
    if !Valid(s) { return; }
    var s1 := ProductionPhase(cfgs, s, diff);
    ProductionPhaseKeepsValid(cfgs, s, diff);
    var t := Advance(cfgs, s, diff);
    assert t == if IsAutomationUnlocked(s1) then RunAutomators(cfgs, s1, 8) else s1;
    forall j | 0 <= j < 8
      ensures t.generators[j].amount >= s.generators[j].amount && t.generators[j].bought >= s.generators[j].bought
    {
      assert s1.generators[j].amount >= s.generators[j].amount;
      assert s1.generators[j].bought == s.generators[j].bought;
    }
  }

  /**
   * One tick at time `now`. A clock that went backwards only resynchronises
   * the timestamp; otherwise production runs, then the automators once
   * automation is unlocked, and the timestamp moves to `now`.
   */
  function GameLoop(cfgs: seq<GeneratorConfig>, s: State, now: int): (t: State)
    requires WellFormedTable(cfgs) && Shaped(s)
    ensures Shaped(t)
    ensures t.lastUpdateTime == now
    ensures Elapsed(s, now) < 0.0 ==> t == s.(lastUpdateTime := now)
    ensures t.buyMultiplier == s.buyMultiplier
    ensures t.(currency := s.currency, generators := s.generators, lastUpdateTime := s.lastUpdateTime) == s
    ensures Valid(s) ==> Valid(t)
    ensures Valid(s) ==> forall j :: 0 <= j < 8 ==>
      t.generators[j].amount >= s.generators[j].amount && t.generators[j].bought >= s.generators[j].bought
  {
    var diff := Elapsed(s, now);
    if diff < 0.0 then s.(lastUpdateTime := now)
    else
      AdvanceNeverLosesUnits(cfgs, s, diff);
      Advance(cfgs, s, diff).(lastUpdateTime := now)
  }

  /**
   * Before automation is unlocked a tick is pure production, and every
   * tier's gain comes from the outputs at the start of the tick.
   */
  lemma GameLoopUsesSnapshot(cfgs: seq<GeneratorConfig>, s: State, now: int)
    requires WellFormedTable(cfgs) && Shaped(s)
    requires s.version == 0 && Elapsed(s, now) >= 0.0
    ensures var t := GameLoop(cfgs, s, now);
      t.currency == s.currency + Yield(GeneratorProduction(cfgs, s, 1), Elapsed(s, now)) &&
      (forall j :: 0 <= j < 7 ==>
        t.generators[j].amount == s.generators[j].amount + Yield(GeneratorProduction(cfgs, s, j + 2), Elapsed(s, now))) &&
      t.generators[7] == s.generators[7]
  {
    ProductionPhaseUsesSnapshot(cfgs, s, Elapsed(s, now));
  }

  /**
   * Once automation is unlocked, a tick with tier 8's automator on ends with
   * tier 8 grown by exactly the largest number of units that the currency
   * after production (`ProductionPhaseFeedsCurrencyOnly`) affords: the top
   * automator buys first, and nothing produces tier 8.
   */
  lemma GameLoopTopAutomatorBuysMax(cfgs: seq<GeneratorConfig>, s: State, now: int)
    requires WellFormedTable(cfgs) && Shaped(s)
    requires IsAutomationUnlocked(s) && AutomatorActive(s, 8) && Elapsed(s, now) >= 0.0
    ensures var c := ProductionPhase(cfgs, s, Elapsed(s, now)).currency;
      var g := s.generators[7];
      var n := BuyAmount(Max, cfgs[7], g.bought, c);
      GameLoop(cfgs, s, now).generators[7] == g.(amount := g.amount + n as real, bought := g.bought + n)
  {
    var diff := Elapsed(s, now);
    AdvanceTopAutomator(cfgs, s, diff);
    assert GameLoop(cfgs, s, now).generators == Advance(cfgs, s, diff).generators;
  }

  /** The same for a forward tick of `diff` seconds. */
  lemma AdvanceTopAutomator(cfgs: seq<GeneratorConfig>, s: State, diff: real)
    requires WellFormedTable(cfgs) && Shaped(s) && diff >= 0.0
    requires IsAutomationUnlocked(s) && AutomatorActive(s, 8)
    ensures var c := ProductionPhase(cfgs, s, diff).currency;
      var g := s.generators[7];
      var n := BuyAmount(Max, cfgs[7], g.bought, c);
      Advance(cfgs, s, diff).generators[7] == g.(amount := g.amount + n as real, bought := g.bought + n)
  {
    var s1 := ProductionPhase(cfgs, s, diff);
    AdvanceAutomatesProduced(cfgs, s, diff);
    TopAutomatorFrom(cfgs, s1, s.generators[7]);
  }

  /** With automation unlocked, a forward tick is the automator loop run on what production leaves. */
  lemma AdvanceAutomatesProduced(cfgs: seq<GeneratorConfig>, s: State, diff: real)
    requires WellFormedTable(cfgs) && Shaped(s) && diff >= 0.0 && IsAutomationUnlocked(s)
    ensures var s1 := ProductionPhase(cfgs, s, diff);
      Advance(cfgs, s, diff) == RunAutomators(cfgs, s1, 8) && s1.generators[7] == s.generators[7]
  {
    ProductionPhaseFeedsCurrencyOnly(cfgs, s, diff);
  }

  /** `AutomatorBuysMax` for tier 8 with its record named. */
  lemma TopAutomatorFrom(cfgs: seq<GeneratorConfig>, s: State, g: Generator)
    requires WellFormedTable(cfgs) && Shaped(s) && AutomatorActive(s, 8) && s.generators[7] == g
    ensures var n := BuyAmount(Max, cfgs[7], g.bought, s.currency);
      RunAutomators(cfgs, s, 8).generators[7] == g.(amount := g.amount + n as real, bought := g.bought + n)
  {
    AutomatorBuysMax(cfgs, s, 8);
  }

  /** Production leaves tier 8 alone and pays tier 1's output into currency. */
  lemma ProductionPhaseFeedsCurrencyOnly(cfgs: seq<GeneratorConfig>, s: State, diff: real)
    requires WellFormedTable(cfgs) && Shaped(s)
    ensures var t := ProductionPhase(cfgs, s, diff);
      t.currency == s.currency + Yield(GeneratorProduction(cfgs, s, 1), diff) &&
      t.generators[7] == s.generators[7]
  {
    ProductionPhaseUsesSnapshot(cfgs, s, diff);
  }

  /** Only tiers with an active automator are ever bought during a tick. */
  lemma GameLoopBuysOnlyAutomated(cfgs: seq<GeneratorConfig>, s: State, now: int, j: nat)
    requires WellFormedTable(cfgs) && Shaped(s) && j < 8
    requires !AutomatorActive(s, j + 1)
    ensures GameLoop(cfgs, s, now).generators[j].bought == s.generators[j].bought
  {
  }
}

=== FILE: wrappers.dfy ===
/** Small failure-compatible helpers shared by every store model. */
module Wrappers {

  /** A value that may be absent, as `Array.prototype.find` returns `undefined` when nothing matches. */
  datatype Option<+T> = None | Some(value: T)

  /**
   * Index of the first element whose key equals `id`, the position
   * `xs.find(x => key(x) === id)` would stop at.
   */
  function FirstIndex<T>(xs: seq<T>, key: T -> int, id: int): (r: Option<nat>)
    ensures r.None? ==> forall i :: 0 <= i < |xs| ==> key(xs[i]) != id
    ensures r.Some? ==> r.value < |xs| && key(xs[r.value]) == id
    ensures r.Some? ==> forall i :: 0 <= i < r.value ==> key(xs[i]) != id
  {
    if |xs| == 0 then None
    else if key(xs[0]) == id then Some(0)
    else match FirstIndex(xs[1..], key, id)
      case None => None
      case Some(j) => Some(j + 1)
  }

  /** A `Record<number, boolean>` read: a missing entry is `undefined`, which is falsy. */
  function Flag(m: map<int, bool>, id: int): bool
  {
    id in m && m[id]
  }
}
